=== FILE: README.md ===
# bode.py VXI-11 bridge, modelled in Dafny

`bode.py` lets an oscilloscope that runs a Bode plot drive a signal generator
it does not support. It poses as a Siglent SDG generator over LXI/VXI-11:
- It answers the oscilloscope's portmap GETPORT query on port 111 with the
  core channel's port, 703.
- It answers create_link, device_write and device_read records on the core
  channel. A destroy_link record closes the connection without a reply.
- It translates the `C1:BSWV ...` / `C1:OUTP ...` text of each device_write
  into frequency, amplitude and output directives for the real generator.

This project models that core as pure functions over byte sequences and
proves properties of them.

| file | module | what it holds |
|---|---|---|
| `bytes.dfy` | `Bytes` | bytes, Python slicing with clamped bounds, `strip`, `split`/`join` on one separator byte, and `Option` |
| `codec.dfy` | `Codec` | `int2bytes`, big-endian decoding, and the ONC-RPC record-marking word |
| `rpc.dfy` | `Rpc` | the 24-byte accepted-reply header, reply framing, and the portmap responder |
| `translator.dfy` | `Translator` | `parse_cmd`: the command text becomes `Directive`s, with its IndexError paths |
| `rendering.dfy` | `Rendering` | the oscilloscope side: how a BSWV/OUTP line is written; `parse_cmd` inverts it |
| `core.dfy` | `Vxi11Core` | the per-record dispatch `Step`, one core connection (`RunSession`) and one accept cycle (`ServeCycle`) |
| `identify.dfy` | `Identify` | the `*IDN?` double-space collapse and the driver selection |

Modelling choices:
- A byte is an `int` in 0..255. Byte-string literals are written as lists
  of numbers, with the ASCII text beside them.
- Python slices clamp to the buffer, so a field comparison on a short
  buffer simply fails. `Bytes.SliceMatches` states this.
- `resp` is a single variable shared by the portmap branch and the core
  loop, and device_write never assigns it. So it is explicit state, an
  `Option<Bytes>`, where `None` means never assigned. A device_write on
  an unassigned `resp` raises NameError, which is modelled as a crash.
- A `parse_cmd` IndexError is modelled as a `Fault`. `Parsed(sent, fault)`
  keeps the directives that already reached the generator before the fault.
- Argument values (frequency, amplitude, dBm) stay the raw bytes they
  arrived as.
- On the oscilloscope side, a BSWV or OUTP argument list may hold words
  the bridge does not know (`Rendering.Other`, `Rendering.Extra`). The walks
  skip such a word on its own.

A malformed or short frame has no error path of its own in the code. Every
field test is a slice comparison, which is false on a short buffer:
- a core record too short to hold the program word at 0x10 is an "unknown
  source", and one too short to hold the procedure word at 0x18 is an
  "unknown request"; either way the connection ends without a reply;
- a device_write that ends by offset 0x40, or whose length word is 0,
  hands `parse_cmd` an empty line. Its `line[1]` raises IndexError, which
  ends the process with no reply (`Vxi11Core.EmptyWriteCrashes`);
- a short portmap request is "incompatible".

## Model

| member | source | states |
|---|---|---|
| Codec.Int2BytesDecodes | bode.py:38-40 | the four bytes of `int2bytes(num)` read back big-endian give `num` modulo 2^32 |
| Codec.FromBytesEncodes | bode.py:38-40 | every four-byte string is `int2bytes` of its own big-endian value, so the encoder is onto and the two are inverse on 32-bit values |
| Codec.RecordMarkDecodes | bode.py:225 | the mark `int2bytes(n OR 0x80000000)` always has the last-fragment bit set and carries `n` modulo 2^31 as the length |
| Bytes.SliceMatches | bode.py:214-215 | comparing a clamped slice with a literal succeeds exactly when the buffer reaches the whole field and holds the literal there |
| Bytes.StripWindow | bode.py:136 | `strip` keeps a window of the line: the bytes before and after it are whitespace, and the window's ends are not |
| Bytes.StripPadded | bode.py:136 | whitespace added before and after a line does not change what `strip` keeps |
| Bytes.Split | bode.py:140 | `split` yields at least one piece, no piece holds the separator, and joining the pieces gives back the input |
| Bytes.SplitJoin | bode.py:142 | splitting a join of separator-free pieces gives back exactly those pieces |
| Rpc.ReplyFrame | bode.py:256-259 | a reply is mark + header + payload: the mark counts exactly the bytes after it, the transaction id is echoed from bytes 4..8, then REPLY (1), then 16 zero bytes, then the payload at offset 28 |
| Rpc.Portmap | bode.py:210-226 | nothing received gives no request; a reply is sent iff the buffer is a GETPORT (word at 0x18 is 3) for program 0x000607AF (word at 0x2C); it is 32 bytes with mark 0x8000001C, the echoed xid, and port 703 as its payload |
| Translator.WalkBswv | bode.py:143-158 | the BSWV walk only sets frequency, amplitude or dBm; it can fail only when FRQ, AMP or AMPDBM is the last argument (IndexError on `args[n+1]`); with none of them left it sends nothing |
| Translator.WalkBswvSkipsUnknown | bode.py:157-158 | an argument that is none of FRQ, AMP, AMPDBM, WVTP, OFST, PHSE is skipped on its own: the walk goes on at the next argument |
| Translator.WalkOutp | bode.py:159-171 | the OUTP walk never fails, only switches the output on or off, and sends nothing when no ON/OFF is left |
| Translator.WalkOutpSkipsUnknown | bode.py:170-171 | an argument that is none of ON, OFF, LOAD is skipped on its own: the walk goes on at the next argument |
| Translator.ParseCommand | bode.py:141-142 | a command's only failure is a missing value; a token other than BSWV/OUTP (first four bytes) sends nothing |
| Translator.ParseCommands | bode.py:140 | the `;`-separated commands can fail only with a missing value |
| Translator.ParseCommandsAppend | bode.py:140-158 | the commands run in order: a fault in the first part ends the loop with what that part sent, and nothing after it runs; otherwise the second part's directives follow and its fault is the outcome's |
| Translator.FaultEndsCommands | bode.py:140-153 | a faulting command after commands that parse cleanly ends the loop: what was sent before it and by it is kept, with its fault, and the commands after it are not run |
| Translator.ParseCmd | bode.py:135-139 | a short-line IndexError at `line[1]` happens before anything is sent |
| Translator.ParseCmdPadded | bode.py:136-140 | the commands are read from the stripped line: whitespace around it, such as a trailing line feed, does not change what is sent or whether it fails |
| Translator.QueryIgnored | bode.py:138 | a line whose last non-whitespace byte is `?` sends nothing and cannot fail |
| Translator.ShortLineFault | bode.py:139 | `line[1]` fails exactly for a non-query line with fewer than two non-whitespace bytes |
| Rendering.WalkBswvSettings | bode.py:143-158 | rendered settings lying anywhere in an argument list: the BSWV walk started at their first word sends exactly their frequency/amplitude/dBm directives in order and then goes on from just after them |
| Rendering.WalkBswvRendered | bode.py:143-158 | over a rendered `key,value,...` list with unknown words mixed in, the BSWV walk sends exactly the frequency/amplitude/dBm settings in order; waveform, offset and phase are skipped with their values, an unknown word on its own |
| Rendering.DanglingValueFaults | bode.py:145-153 | after rendered settings, a trailing FRQ, AMP or AMPDBM with no value makes the walk fail with a missing value for that keyword, after sending exactly the settings' directives |
| Rendering.DanglingCommandFaults | bode.py:141-153 | a BSWV command whose last argument is a value keyword with no value parses to its settings' directives and that missing-value fault |
| Rendering.FaultStopsCommands | bode.py:140-153 | after rendered commands, a command with a dangling value keyword ends the loop: everything sent before it, its own directives included, is kept, and the commands after it, whatever they are, are not run |
| Rendering.WalkOutpSwitches | bode.py:159-171 | rendered switches lying anywhere in an argument list: the OUTP walk started at their first word sends exactly their ON/OFF directives in order and then goes on from just after them |
| Rendering.WalkOutpRendered | bode.py:159-171 | over rendered switches with unknown words mixed in, the OUTP walk sends exactly the ON/OFF switches in order; LOAD is skipped with its value, an unknown word on its own |
| Rendering.CommandRoundTrip | bode.py:140-171 | parsing one rendered BSWV or OUTP command gives back exactly its directives, with no fault |
| Rendering.CommandsRoundTrip | bode.py:140 | parsing a list of rendered commands gives back their directives concatenated in order |
| Rendering.RenderedCommandsSplit | bode.py:140 | splitting a rendered line on `;` gives back the rendered commands |
| Rendering.LineRoundTrip | bode.py:135-171 | `parse_cmd` inverts the oscilloscope's rendering: a `C<n>:cmd;cmd;...` line with plain argument values yields exactly the directives it encodes, in order, with no fault |
| Rendering.PaddedLineRoundTrip | bode.py:135-171 | a rendered line padded with whitespace on either side still yields exactly the directives it encodes, in order, with no fault |
| Vxi11Core.WritePayloadFramed | bode.py:243 | a device_write whose length word at 0x3C is `int2bytes(len(p))` and whose data `p` starts at 0x40 yields exactly `p`, whatever bytes follow it |
| Vxi11Core.Step | bode.py:229-255 | one core record: nothing received is idle; a wrong program word, destroy_link or an unknown procedure close without reply; create_link/device_read answer with their fixed payload; device_write forwards the parsed directives and answers with the previous `resp` unchanged, or crashes with the translator's fault, or, on a clean parse with `resp` never assigned, with the NameError; every answer echoes the xid, then holds REPLY (1) and four zero words, carries its payload after those 28 bytes, and has an exact mark |
| Vxi11Core.CreateLinkReply | bode.py:236-240 | the create_link reply is 44 bytes: error 0, link id 0, abort port 0, maximum receive size 0x800000 |
| Vxi11Core.DeviceReadReply | bode.py:245-249 | the device_read reply is 64 bytes: error 0, reason END (4), a data length word equal to the bytes after it, the identification, a line feed and two pad bytes |
| Vxi11Core.ReadIdempotent | bode.py:247-249 | two device_read records with the same xid get byte-identical replies, whatever `resp` was before |
| Vxi11Core.StepKeepsInvariants | bode.py:236-259 | an answering step keeps `resp` error-free (first word 0) and short; its reply then reports error 0 and has an exact record mark |
| Vxi11Core.RunSession | bode.py:229-260 | one core connection sends at most one reply per received record |
| Vxi11Core.RunSessionAppend | bode.py:229-260 | the records of a connection run in order: once a prefix has closed or crashed the connection, later records change nothing; while it is open, the rest runs from the `resp` the prefix left, and its replies and directives follow the prefix's |
| Vxi11Core.StopEndsSession | bode.py:233-255 | a record with a wrong program word, destroy_link or an unknown procedure ends the connection with no reply: what came before is kept, and no record after it is answered |
| Vxi11Core.CrashEndsSession | bode.py:241-244 | a device_write that raises ends the connection after the directives it sent: what came before is kept, and no record after it is answered |
| Vxi11Core.SessionReportsNoError | bode.py:229-259 | from an error-free `resp`, every reply of a connection reports error 0, and `resp` stays error-free |
| Vxi11Core.SessionMarksExact | bode.py:258 | from a short `resp`, every reply's record mark flags the last fragment and counts exactly the bytes that follow it |
| Vxi11Core.ServeCycle | bode.py:209-219 | a cycle is dropped with no core connection iff the portmap buffer is non-empty and not a core GETPORT |
| Vxi11Core.LinkedSessionReportsNoError | bode.py:236-240 | after a served GETPORT, a connection that starts with create_link gets at least one reply, and every reply reports error 0 |
| Vxi11Core.WriteAfterPortmapReportsPort | bode.py:219 | after a served GETPORT, a device_write as the first core record that parses cleanly gets a reply whose error word is 703 |
| Vxi11Core.EmptyPortmapKeepsResp | bode.py:209-244 | after an empty portmap receive, `resp` is what the previous cycle left: a first clean device_write is answered with that payload, or crashes with the NameError when it was never assigned |
| Vxi11Core.EmptyWriteCrashes | bode.py:243-244 | a device_write of at most 0x40 bytes, or with length word 0, hands `parse_cmd` an empty line, whose `line[1]` (bode.py:139) raises IndexError before anything is sent |
| Identify.ReplaceDouble | bode.py:57 | one `replace(b'  ', b' ')` keeps the first byte, changes nothing exactly when no two spaces are adjacent, and otherwise shortens the string |
| Identify.ReplaceRun | bode.py:57 | one pass turns a run of k spaces into a run of (k+1)/2: every pair in the run is replaced, left to right |
| Identify.ReplaceAtNonSpace | bode.py:57 | one pass works on each side of a non-space byte separately, so the pairs of every run are replaced, not only the first |
| Identify.Collapse | bode.py:55-58 | the replace-until-stable loop ends with no two adjacent spaces |
| Identify.ReplaceKeepsSqueeze | bode.py:57 | one replacement pass leaves the squeezed form unchanged (every run of spaces squeezed to one) |
| Identify.CollapseIsSqueeze | bode.py:55-58 | the loop computes exactly the reference squeeze |
| Identify.SelectDriver | bode.py:61-73 | with no resource, the dummy driver; otherwise the HP 8904A driver iff the squeezed identification starts with "HP 8904A", else the generic SCPI driver |
| Identify.SpacingIrrelevant | bode.py:55-61 | two identifications that differ only in run lengths of spaces select the same driver |

## Left out

- Sockets and the server loops: accept, recv, send and close (bode.py:197-263).
  - `ServeCycle` takes the received buffers as parameters.
  - `RunSession` ends when the buffers run out (`Open`).
  - The `recv` sizes (128 and 255) are not imposed. The model holds for buffers of any length.
- The busy-wait on an empty receive (bode.py:231-232): it is the `Idle` step, which changes nothing.
- The `continue` after an incompatible portmap request skips `conn.close()` (bode.py:217). Connection lifetimes are not modelled.
- The pyvisa transport, the instrument writes of `send_cmd`, and its error-queue reads (bode.py:45-130) are foreign I/O. `Directive` records what `send_cmd` is asked to do.
- The default branch of `send_cmd` (bode.py:116-126) cannot be reached, because the driver is always dummy, 8904a or scpi. `Identify.Driver` has exactly those three cases.
- Floating-point work is not modelled:
  - the `float()` conversion of argument bytes, and its ValueError on a non-numeric value, which would crash like an IndexError does;
  - the `%.3f`/`%.6f` formatting, `math.log10`, and the `sqrt` that is never imported (bode.py:97).
  Argument values stay raw bytes.
- `int(line[1])` (bode.py:139) indexes a bytes object, which yields an int. So the call can only raise IndexError, and the channel value itself is discarded.
- Logging, argv/usage handling, the startup banner, the `*RST`/preset initialization writes, KeyboardInterrupt shutdown, and the final "output off" (bode.py:178-194, 263-273). These are process plumbing. A `Crash` outcome ends the process: the IndexError or NameError is not caught by `except KeyboardInterrupt` (bode.py:263), so the output-off shutdown (bode.py:266-273) does not run. That shutdown runs only after Ctrl+C, and is not modelled.
- Vxi11Core.RunSession: its own contract only bounds the number of replies. Reply contents are stated by `SessionReportsNoError` and `SessionMarksExact`; the end of the connection at a Stop or a Crash by `RunSessionAppend`, `StopEndsSession` and `CrashEndsSession`.
- Vxi11Core.Step: assumes every `send_cmd` call returns. In the source, `send_cmd` calls `quit()` on any exception of the instrument I/O (bode.py:128-130). With the HP 8904A driver every `Dbm` directive raises NameError on the unimported `sqrt` (bode.py:97), so the process exits there: the later directives are not sent and the device_write gets no reply, where `Step` reports an `Answer`. Instrument failures are foreign I/O and are not modelled.
- Vxi11Core.Step: the exact-mark clause is stated only for payloads shorter than 2^31 - 24 bytes. Beyond that, `int2bytes` wraps and the mark no longer counts the bytes. Such a payload cannot occur, since every `resp` is at most 36 bytes.

=== FILE: bytes.dfy ===
/**
 Byte strings as the bridge handles them, together with the few Python `bytes`
 operations its protocol code relies on: slicing with clamped bounds, `split`
 on a one-byte separator (and its inverse, `join`), and `strip`.
 */
module Bytes {

  type Byte = b: int | 0 <= b < 256
  type Bytes = seq<Byte>

  datatype Option<T> = None | Some(value: T)

  const SPACE: Byte := 0x20

  function Min(a: int, b: int): int {
    if a <= b then a else b
  }

  function Zeros(n: nat): (r: Bytes)
    ensures |r| == n
    ensures forall k :: 0 <= k < n ==> r[k] == 0
  {
    seq(n, k => 0)
  }

  /** Python's `s[lo:hi]` for 0 <= lo <= hi: both bounds are clamped to the length of `s`. */
  function Slice(s: Bytes, lo: nat, hi: nat): (r: Bytes)
    requires lo <= hi
    ensures |r| == Min(hi, |s|) - Min(lo, |s|)
    ensures forall k :: 0 <= k < |r| ==> r[k] == s[lo + k]
  {
    s[Min(lo, |s|)..Min(hi, |s|)]
  }

  /** Python's `s[k:]`. */
  function From(s: Bytes, k: nat): Bytes {
    if k <= |s| then s[k..] else []
  }

  /** Comparing a slice with a non-empty literal succeeds exactly when the buffer
      is long enough and holds the literal at that offset: a short buffer simply
      fails the comparison. */
  lemma SliceMatches(s: Bytes, lo: nat, w: Bytes)
    requires |w| > 0
    ensures Slice(s, lo, lo + |w|) == w <==> lo + |w| <= |s| && s[lo..lo + |w|] == w
  {
    if Slice(s, lo, lo + |w|) == w {
      assert lo + |w| <= |s|;
    }
  }

  /** The bytes `bytes.strip()` removes: space, tab, line feed, vertical tab, form feed, carriage return. */
  predicate IsSpace(b: Byte) {
    b == SPACE || 0x09 <= b <= 0x0D
  }

  predicate AllSpace(s: Bytes) {
    forall k :: 0 <= k < |s| ==> IsSpace(s[k])
  }

  /** Drops leading whitespace: the result is a suffix of `s`, everything dropped is whitespace, and what is kept does not start with whitespace. */
  function StripLeft(s: Bytes): (r: Bytes)
    ensures |r| <= |s| && r == s[|s| - |r|..]
    ensures AllSpace(s[..|s| - |r|])
    ensures r == [] || !IsSpace(r[0])
    decreases |s|
  {
    if |s| > 0 && IsSpace(s[0]) then
      var r := StripLeft(s[1..]);
      assert s[..|s| - |r|] == [s[0]] + s[1..][..|s| - 1 - |r|];
      r
    else
      s
  }

  /** Drops trailing whitespace: the result is a prefix of `s`, everything dropped is whitespace, and what is kept does not end with whitespace. */
  function StripRight(s: Bytes): (r: Bytes)
    ensures |r| <= |s| && r == s[..|r|]
    ensures AllSpace(s[|r|..])
    ensures r == [] || !IsSpace(r[|r| - 1])
    decreases |s|
  {
    if |s| > 0 && IsSpace(s[|s| - 1]) then
      var r := StripRight(s[..|s| - 1]);
      assert s[|r|..] == s[..|s| - 1][|r|..] + [s[|s| - 1]];
      r
    else
      s
  }

  /** Python's `bytes.strip()`. */
  function Strip(s: Bytes): Bytes {
    StripRight(StripLeft(s))
  }

  /** A string that neither starts nor ends with whitespace is left unchanged by `strip`. */
  lemma StripUnchanged(s: Bytes)
    requires |s| > 0 && !IsSpace(s[0]) && !IsSpace(s[|s| - 1])
    ensures Strip(s) == s
  {
    assert StripLeft(s) == s;
  }

  /** `Strip(s)` is the window `s[lo..hi]`: the bytes outside it are all
      whitespace, and the window is empty or starts and ends with a
      non-whitespace byte. */
  lemma StripWindow(s: Bytes) returns (lo: nat, hi: nat)
    ensures lo <= hi <= |s| && Strip(s) == s[lo..hi]
    ensures forall k :: 0 <= k < lo ==> IsSpace(s[k])
    ensures forall k :: hi <= k < |s| ==> IsSpace(s[k])
    ensures lo < hi ==> !IsSpace(s[lo]) && !IsSpace(s[hi - 1])
    ensures lo == hi ==> forall k :: 0 <= k < |s| ==> IsSpace(s[k])
  {
    var l := StripLeft(s);
    var r := StripRight(l);
    lo := |s| - |l|;
    hi := lo + |r|;
    assert r == s[lo..hi];
    forall k | 0 <= k < lo ensures IsSpace(s[k]) {
      assert s[..lo][k] == s[k];
    }
    forall k | hi <= k < |s| ensures IsSpace(s[k]) {
      assert l[|r|..][k - hi] == s[k];
    }
  }

  /** Leading whitespace in front of `t` is dropped along with `t`'s own. */
  lemma {:induction false} StripLeftSpaces(w: Bytes, t: Bytes)
    requires AllSpace(w)
    ensures StripLeft(w + t) == StripLeft(t)
    decreases |w|
  {
    if |w| > 0 {
      assert (w + t)[1..] == w[1..] + t;
      StripLeftSpaces(w[1..], t);
    } else {
      assert w + t == t;
    }
  }

  /** Trailing whitespace after `t` is dropped along with `t`'s own. */
  lemma {:induction false} StripRightSpaces(t: Bytes, w: Bytes)
    requires AllSpace(w)
    ensures StripRight(t + w) == StripRight(t)
    decreases |w|
  {
    if |w| > 0 {
      assert (t + w)[..|t + w| - 1] == t + w[..|w| - 1];
      StripRightSpaces(t, w[..|w| - 1]);
    } else {
      assert t + w == t;
    }
  }

  /** Whitespace appended to `t` survives `StripLeft` unless `t` is all whitespace. */
  lemma {:induction false} StripLeftAppend(t: Bytes, w: Bytes)
    requires AllSpace(w)
    ensures StripLeft(t + w) == if StripLeft(t) == [] then [] else StripLeft(t) + w
    decreases |t|
  {
    if |t| == 0 {
      assert t + w == [] + w;
      StripLeftSpaces(w, []);
      assert w + [] == w;
    } else if IsSpace(t[0]) {
      assert (t + w)[1..] == t[1..] + w;
      StripLeftAppend(t[1..], w);
    }
  }

  /** Surrounding a string with whitespace does not change what `strip` returns. */
  lemma StripPadded(w1: Bytes, s: Bytes, w2: Bytes)
    requires AllSpace(w1) && AllSpace(w2)
    ensures Strip(w1 + s + w2) == Strip(s)
  {
    assert w1 + s + w2 == w1 + (s + w2);
    StripLeftSpaces(w1, s + w2);
    StripLeftAppend(s, w2);
    if StripLeft(s) != [] {
      StripRightSpaces(StripLeft(s), w2);
    }
  }

  /** Python's `b','.join(parts)` with a one-byte separator. */
  function Join(parts: seq<Bytes>, sep: Byte): Bytes
    decreases |parts|
  {
    if |parts| == 0 then []
    else if |parts| == 1 then parts[0]
    else parts[0] + [sep] + Join(parts[1..], sep)
  }

  /** Python's `s.split(sep)` with a one-byte separator: never empty, no piece
      contains the separator, and joining the pieces gives `s` back. */
  function Split(s: Bytes, sep: Byte): (r: seq<Bytes>)
    ensures |r| >= 1
    ensures forall i :: 0 <= i < |r| ==> sep !in r[i]
    ensures Join(r, sep) == s
    decreases |s|
  {
    if |s| == 0 then
      [[]]
    else if s[0] == sep then
      var rest := Split(s[1..], sep);
      assert ([[]] + rest)[1..] == rest;
      assert s == [sep] + s[1..];
      [[]] + rest
    else
      var rest := Split(s[1..], sep);
      var r := [[s[0]] + rest[0]] + rest[1..];
      assert r[1..] == rest[1..];
      assert s == [s[0]] + s[1..];
      r
  }

  /** Splitting after a separator-free prefix extends the first piece. */
  lemma {:induction false} SplitPrefix(p: Bytes, t: Bytes, sep: Byte)
    requires sep !in p
    ensures Split(p + t, sep) == [p + Split(t, sep)[0]] + Split(t, sep)[1..]
    decreases |p|
  {
    var pieces := Split(t, sep);
    if |p| == 0 {
      assert p + t == t;
      assert p + pieces[0] == pieces[0];
      assert pieces == [pieces[0]] + pieces[1..];
    } else {
      assert (p + t)[1..] == p[1..] + t;
      SplitPrefix(p[1..], t, sep);
      assert [p[0]] + (p[1..] + Split(t, sep)[0]) == p + Split(t, sep)[0];
    }
  }

  /** A separator-free piece followed by the separator splits off as one piece. */
  lemma SplitAfterSeparator(p: Bytes, tail: Bytes, sep: Byte)
    requires sep !in p
    ensures Split(p + [sep] + tail, sep) == [p] + Split(tail, sep)
  {
    var u := [sep] + tail;
    assert p + [sep] + tail == p + u;
    assert p + [] == p;
    SplitLeadingSeparator(tail, sep);
    SplitPrefix(p, u, sep);
  }

  /** A leading separator splits off an empty first piece. */
  lemma SplitLeadingSeparator(tail: Bytes, sep: Byte)
    ensures Split([sep] + tail, sep) == [[]] + Split(tail, sep)
  {
    assert ([sep] + tail)[1..] == tail;
  }

  /** Joining separator-free pieces and splitting again gives the pieces back. */
  lemma {:induction false} SplitJoin(parts: seq<Bytes>, sep: Byte)
    requires |parts| >= 1
    requires forall i :: 0 <= i < |parts| ==> sep !in parts[i]
    ensures Split(Join(parts, sep), sep) == parts
    decreases |parts|
  {
    if |parts| == 1 {
      SplitPrefix(parts[0], [], sep);
      assert parts[0] + [] == parts[0];
    } else {
      var tail := Join(parts[1..], sep);
      SplitAfterSeparator(parts[0], tail, sep);
      SplitJoin(parts[1..], sep);
      assert parts == [parts[0]] + parts[1..];
    }
  }

  /** A byte that is neither the separator nor in any piece is not in the join. */
  lemma {:induction false} JoinAvoids(parts: seq<Bytes>, sep: Byte, b: Byte)
    requires b != sep
    requires forall i :: 0 <= i < |parts| ==> b !in parts[i]
    ensures b !in Join(parts, sep)
    decreases |parts|
  {
    if |parts| > 1 {
      JoinAvoids(parts[1..], sep, b);
    }
  }

  /** The join ends with the last byte of the last piece, when that piece is not empty. */
  lemma {:induction false} JoinLast(parts: seq<Bytes>, sep: Byte)
    requires |parts| >= 1 && |parts[|parts| - 1]| > 0
    ensures |Join(parts, sep)| > 0
    ensures Join(parts, sep)[|Join(parts, sep)| - 1] == parts[|parts| - 1][|parts[|parts| - 1]| - 1]
    decreases |parts|
  {
    if |parts| > 1 {
      JoinLast(parts[1..], sep);
    }
  }
}

=== FILE: codec.dfy ===
/**
 The wire codec: the 32-bit big-endian encoder `int2bytes`, the big-endian
 decoder `int.from_bytes(.., "big")`, and the ONC-RPC record-marking word (a
 fragment length with bit 31 set to flag the last fragment).
 */
module Codec {
  import opened Bytes

  const TWO32: int := 0x1_0000_0000
  const HIGH_BIT: int := 0x8000_0000

  /** `int2bytes`: floor divisions by 2^24, 2^16, 2^8 and 1, each masked with
      `& 0xFF`. Both Python operations agree with Dafny's `/` and `%` for the
      positive divisors used here, negative `num` included. */
  function Int2Bytes(num: int): (r: Bytes)
    ensures |r| == 4
  {
    [(num / 0x100_0000) % 0x100, (num / 0x1_0000) % 0x100, (num / 0x100) % 0x100, num % 0x100]
  }

  /** `int.from_bytes(s, "big")`: the most significant byte comes first. */
  function FromBytes(s: Bytes): nat
    decreases |s|
  {
    if |s| == 0 then 0 else FromBytes(s[..|s| - 1]) * 0x100 + s[|s| - 1]
  }

  lemma FromBytes4(s: Bytes)
    requires |s| == 4
    ensures FromBytes(s) == (s[0] as int) * 0x100_0000 + (s[1] as int) * 0x1_0000 + (s[2] as int) * 0x100 + s[3]
  {
    assert FromBytes(s[..1]) == s[0] by {
      assert s[..1][..0] == [];
    }
    assert FromBytes(s[..2]) == (s[0] as int) * 0x100 + s[1] by {
      assert s[..2][..1] == s[..1];
    }
    assert FromBytes(s[..3]) == (s[0] as int) * 0x1_0000 + (s[1] as int) * 0x100 + s[2] by {
      assert s[..3][..2] == s[..2];
    }
  }

  /** Division by 2^16 is two divisions by 2^8, and by 2^24 three. */
  lemma DivideInSteps(x: int)
    ensures x / 0x1_0000 == (x / 0x100) / 0x100
    ensures x / 0x100_0000 == ((x / 0x100) / 0x100) / 0x100
  {
    var a := x / 0x100;
    var b := a / 0x100;
    var c := b / 0x100;
    assert x == 0x1_0000 * b + (0x100 * (a % 0x100) + x % 0x100);
    assert x == 0x100_0000 * c + (0x1_0000 * (b % 0x100) + 0x100 * (a % 0x100) + x % 0x100);
  }

  /** The bytes of `int2bytes(num)` read back big-endian give `num` modulo 2^32
      (so exactly `num` for 0 <= num < 2^32). */
  lemma Int2BytesDecodes(num: int)
    ensures FromBytes(Int2Bytes(num)) == num % TWO32
  {
    var r := Int2Bytes(num);
    FromBytes4(r);
    DivideInSteps(num);
    var q1 := num / 0x100;
    var q2 := q1 / 0x100;
    var q3 := q2 / 0x100;
    var q4 := q3 / 0x100;
    assert num == q1 * 0x100 + r[3];
    assert q1 == q2 * 0x100 + r[2];
    assert q2 == q3 * 0x100 + r[1];
    assert q3 == q4 * 0x100 + r[0];
    assert num == q4 * TWO32 + FromBytes(r);
  }

  /** Every four-byte string is the encoding of its own big-endian value. */
  lemma FromBytesEncodes(s: Bytes)
    requires |s| == 4
    ensures Int2Bytes(FromBytes(s)) == s
  {
    FromBytes4(s);
    var v := FromBytes(s);
    DivideInSteps(v);
    assert v / 0x100 == (s[0] as int) * 0x1_0000 + (s[1] as int) * 0x100 + s[2];
    assert (v / 0x100) / 0x100 == (s[0] as int) * 0x100 + s[1];
    assert ((v / 0x100) / 0x100) / 0x100 == s[0];
  }

  /** Python's `n | 0x80000000` for a non-negative `n`. */
  function OrHighBit(n: nat): nat {
    if (n / HIGH_BIT) % 2 == 1 then n else n + HIGH_BIT
  }

  /** The record-marking word that prefixes a reply of `n` bytes: `int2bytes(n | 0x80000000)`. */
  function RecordMark(n: nat): (r: Bytes)
    ensures |r| == 4
  {
    Int2Bytes(OrHighBit(n))
  }

  /** Reads a record-marking word: the last-fragment flag and the fragment length. */
  function DecodeMark(w: Bytes): (bool, nat)
    requires |w| == 4
  {
    var v := FromBytes(w);
    (v >= HIGH_BIT, v % HIGH_BIT)
  }

  /** Bit 31 of `n | 0x80000000` is set and its low 31 bits are those of `n`. */
  lemma OrHighBitLow32(n: nat)
    ensures OrHighBit(n) % TWO32 == HIGH_BIT + n % HIGH_BIT
  {
    var q := n / HIGH_BIT;
    var low := n % HIGH_BIT;
    var h := q / 2;
    assert n == h * TWO32 + (q % 2) * HIGH_BIT + low;
    if q % 2 == 1 {
      assert OrHighBit(n) == h * TWO32 + (HIGH_BIT + low);
    } else {
      assert OrHighBit(n) == h * TWO32 + (HIGH_BIT + low);
    }
  }

  /** A record mark always flags the last fragment and carries the length
      modulo 2^31, so exactly `n` for any reply shorter than 2^31 bytes. */
  lemma RecordMarkDecodes(n: nat)
    ensures DecodeMark(RecordMark(n)) == (true, n % HIGH_BIT)
  {
    Int2BytesDecodes(OrHighBit(n));
    OrHighBitLow32(n);
  }
}

=== FILE: core.dfy ===
/**
 The VXI-11 core channel: what the server does with each record received on
 the core connection (create_link, device_write, device_read, destroy_link),
 the loop over one connection, and one accept cycle of the two listeners.

 The reply payload `resp` is a single variable shared by the portmap branch
 and the core loop, and device_write never assigns it: its reply repeats
 whatever payload was sent last. It is therefore explicit state here, with
 `None` for a variable that was never assigned.
 */
module Vxi11Core {
  import opened Bytes
  import opened Codec
  import opened Rpc
  import opened Translator

  const CREATE_LINK: Bytes := [0x00, 0x00, 0x00, 0x0A]
  const DEVICE_WRITE: Bytes := [0x00, 0x00, 0x00, 0x0B]
  const DEVICE_READ: Bytes := [0x00, 0x00, 0x00, 0x0C]
  const DESTROY_LINK: Bytes := [0x00, 0x00, 0x00, 0x17]

  /** The identification the bridge answers every read with: "IDN-SGLT-PRI SDG0000X". */
  const ID_BYTES: Bytes := [0x49, 0x44, 0x4E, 0x2D, 0x53, 0x47, 0x4C, 0x54, 0x2D, 0x50, 0x52,
                            0x49, 0x20, 0x53, 0x44, 0x47, 0x30, 0x30, 0x30, 0x30, 0x58]

  /** create_link result: error 0, link id 0, abort port 0, maximum receive size 0x800000. */
  const CREATE_LINK_RESP: Bytes := Zeros(12) + [0x00, 0x80, 0x00, 0x00]

  /** device_read result: error 0, reason END (4), then the data length word,
      the identification, a line feed and two pad bytes. */
  const READ_RESP: Bytes := [0x00, 0x00, 0x00, 0x00, 0x00, 0x00, 0x00, 0x04]
                            + Int2Bytes(|ID_BYTES| + 3) + ID_BYTES + [0x0A, 0x00, 0x00]

  /** `resp` as the portmap branch leaves it: the encoded core port. */
  const PORT_RESP: Bytes := Int2Bytes(CORE_PORT)

  /** Why a connection ends without a reply. */
  datatype StopReason = UnknownSource | DestroyLink | UnknownProcedure

  /** Uncaught exceptions: a translator IndexError, or a device_write reply
      built from a `resp` that was never assigned (NameError). */
  datatype CrashCause = TranslatorFault(fault: Fault) | RespUnbound

  /** The effect of one received record. */
  datatype Outcome =
    | Idle                                                     // nothing received: wait again
    | Answer(reply: Bytes, resp: Bytes, sent: seq<Directive>)  // reply sent, connection stays open
    | Stop(reason: StopReason)                                 // connection closed, no reply
    | Crash(sent: seq<Directive>, cause: CrashCause)           // exception, after `sent` reached the generator

  /** The program word at 0x10 names the core program. */
  predicate FromCore(rx: Bytes) {
    |rx| >= 0x14 && rx[0x10..0x14] == CORE_PROGRAM
  }

  /** A core-program call of procedure `proc` (procedure word at 0x18). */
  predicate Calls(rx: Bytes, proc: Bytes) {
    FromCore(rx) && |rx| >= 0x1C && rx[0x18..0x1C] == proc
  }

  /** The device_write data: the bytes from 0x40 on, as many as the length
      word at 0x3C says, cut short by the end of the buffer. */
  function WritePayload(rx: Bytes): (cmd: Bytes)
    ensures |rx| <= 0x40 ==> cmd == []
    ensures |rx| > 0x40 ==> cmd == rx[0x40..Min(|rx|, 0x40 + FromBytes(rx[0x3C..0x40]))]
  {
    Slice(rx, 0x40, 0x40 + FromBytes(Slice(rx, 0x3C, 0x40)))
  }

  /** The payload framing round trip: a device_write whose length word at
      0x3C is `int2bytes(|p|)` and whose data `p` follows at 0x40 yields
      exactly `p`, whatever trailing bytes come after it. */
  lemma WritePayloadFramed(head: Bytes, p: Bytes, tail: Bytes)
    requires |head| == 0x3C && |p| < TWO32
    ensures WritePayload(head + Int2Bytes(|p|) + p + tail) == p
  {
    var word := Int2Bytes(|p|);
    assert FromBytes(word) == |p| by {
      Int2BytesDecodes(|p|);
    }
    FramedSlices(head, word, p, tail);
  }

  /** A buffer laid out as 0x3C header bytes, a four-byte length word, the
      data and anything after it: the word and the data sit at their offsets. */
  lemma FramedSlices(head: Bytes, word: Bytes, p: Bytes, tail: Bytes)
    requires |head| == 0x3C && |word| == 4
    ensures var rx := head + word + p + tail;
      |rx| == 0x40 + |p| + |tail| && rx[0x3C..0x40] == word && rx[0x40..0x40 + |p|] == p
  {
    var rx := head + word + p + tail;
    assert rx[0x3C..0x40] == word;
    assert rx[0x40..0x40 + |p|] == p;
  }

  /** One record on the core connection, given the current `resp`.
      Nothing received means nothing to do; a wrong program word, destroy_link
      or an unknown procedure close the connection without a reply;
      create_link and device_read answer with their fixed payload; device_write
      forwards the translated directives and answers with the previous payload
      unchanged. Every answer echoes the transaction id, then says REPLY (1)
      followed by four zero words, and carries the payload after that 28-byte
      record mark and header. */
  function Step(rx: Bytes, resp: Option<Bytes>): (r: Outcome)
    ensures r.Idle? <==> |rx| == 0
    ensures r == Stop(UnknownSource) <==> |rx| > 0 && !FromCore(rx)
    ensures r == Stop(DestroyLink) <==> Calls(rx, DESTROY_LINK)
    ensures r == Stop(UnknownProcedure) <==>
              FromCore(rx) && !Calls(rx, CREATE_LINK) && !Calls(rx, DEVICE_WRITE)
              && !Calls(rx, DEVICE_READ) && !Calls(rx, DESTROY_LINK)
    ensures Calls(rx, CREATE_LINK) ==> r.Answer? && r.resp == CREATE_LINK_RESP && r.sent == []
    ensures Calls(rx, DEVICE_READ) ==> r.Answer? && r.resp == READ_RESP && r.sent == []
    ensures Calls(rx, DEVICE_WRITE) ==>
              var p := ParseCmd(WritePayload(rx));
              && (r.Answer? || r.Crash?)
              && r.sent == p.sent
              && (r.Answer? <==> p.fault.None? && resp.Some?)
              && (r.Answer? ==> r.resp == resp.value)
              && (r.Crash? && p.fault.Some? ==> r.cause == TranslatorFault(p.fault.value))
              && (r.Crash? && p.fault.None? ==> r.cause == RespUnbound)
    ensures r.Answer? ==> |r.reply| == 28 + |r.resp| && r.reply[4..8] == rx[4..8] && r.reply[28..] == r.resp
    ensures r.Answer? ==> r.reply[8..12] == [0x00, 0x00, 0x00, 0x01] && forall k :: 12 <= k < 28 ==> r.reply[k] == 0
    ensures r.Answer? && |r.resp| < HIGH_BIT - 24 ==> DecodeMark(r.reply[..4]) == (true, |r.reply| - 4)
  {
    SliceMatches(rx, 0x10, CORE_PROGRAM);
    SliceMatches(rx, 0x18, CREATE_LINK);
    SliceMatches(rx, 0x18, DEVICE_WRITE);
    SliceMatches(rx, 0x18, DEVICE_READ);
    SliceMatches(rx, 0x18, DESTROY_LINK);
    var proc := Slice(rx, 0x18, 0x1C);
    if |rx| == 0 then
      Idle
    else if Slice(rx, 0x10, 0x14) != CORE_PROGRAM then
      Stop(UnknownSource)
    else if proc == CREATE_LINK then
      Answer(ReplyFrame(rx, CREATE_LINK_RESP), CREATE_LINK_RESP, [])
    else if proc == DEVICE_WRITE then
      var p := ParseCmd(WritePayload(rx));
      if p.fault.Some? then Crash(p.sent, TranslatorFault(p.fault.value))
      else if resp.None? then Crash(p.sent, RespUnbound)
      else Answer(ReplyFrame(rx, resp.value), resp.value, p.sent)
    else if proc == DEVICE_READ then
      Answer(ReplyFrame(rx, READ_RESP), READ_RESP, [])
    else if proc == DESTROY_LINK then
      Stop(DestroyLink)
    else
      Stop(UnknownProcedure)
  }

  /** The create_link reply: error 0, link id 0, abort port 0, and maximum
      receive size 0x800000, whatever the request asked for. */
  lemma CreateLinkReply(rx: Bytes, resp: Option<Bytes>)
    requires Calls(rx, CREATE_LINK)
    ensures var r := Step(rx, resp);
      && r.Answer? && |r.reply| == 44
      && (forall k :: 28 <= k < 40 ==> r.reply[k] == 0)
      && r.reply[40..44] == [0x00, 0x80, 0x00, 0x00]
      && FromBytes(r.reply[40..44]) == 0x80_0000
  {
    var r := Step(rx, resp);
    assert r.reply[28..] == CREATE_LINK_RESP;
    assert r.reply[40..44] == CREATE_LINK_RESP[12..16];
    FromBytes4(r.reply[40..44]);
  }

  /** The device_read reply: error 0, reason END (4), and a data length word
      equal to the number of bytes after it (the identification, a line
      feed and two pad bytes). */
  lemma DeviceReadReply(rx: Bytes, resp: Option<Bytes>)
    requires Calls(rx, DEVICE_READ)
    ensures var r := Step(rx, resp);
      && r.Answer? && |r.reply| == 64
      && r.reply[28..32] == [0x00, 0x00, 0x00, 0x00]
      && r.reply[32..36] == [0x00, 0x00, 0x00, 0x04]
      && FromBytes(r.reply[36..40]) == |r.reply| - 40
      && r.reply[40..61] == ID_BYTES
      && r.reply[61..] == [0x0A, 0x00, 0x00]
  {
    var r := Step(rx, resp);
    Int2BytesDecodes(|ID_BYTES| + 3);
    assert r.reply[28..] == READ_RESP;
    assert r.reply[36..40] == Int2Bytes(|ID_BYTES| + 3);
  }

  /** Reads are idempotent: two device_read records with the same transaction
      id get byte-identical replies, whatever happened in between. */
  lemma ReadIdempotent(rx1: Bytes, rx2: Bytes, resp1: Option<Bytes>, resp2: Option<Bytes>)
    requires Calls(rx1, DEVICE_READ) && Calls(rx2, DEVICE_READ)
    requires rx1[4..8] == rx2[4..8]
    ensures Step(rx1, resp1).reply == Step(rx2, resp2).reply
  {
    assert Slice(rx1, 0x04, 0x08) == rx1[4..8];
    assert Slice(rx2, 0x04, 0x08) == rx2[4..8];
  }

  /** `resp` holds no error: unassigned, or a payload whose first word is 0. */
  predicate ErrorFree(resp: Option<Bytes>) {
    resp.None? || (|resp.value| >= 4 && resp.value[..4] == [0x00, 0x00, 0x00, 0x00])
  }

  /** The VXI-11 error word of a reply, right after the 28-byte prefix, is 0. */
  predicate ReportsNoError(reply: Bytes) {
    |reply| >= 32 && reply[28..32] == [0x00, 0x00, 0x00, 0x00]
  }

  /** A `resp` short enough that the record mark of its reply is exact. */
  predicate Short(resp: Option<Bytes>) {
    resp.None? || |resp.value| < 64
  }

  /** One answering step keeps `resp` error-free and short, and its reply
      then reports error 0 and has an exact record mark. */
  lemma StepKeepsInvariants(rx: Bytes, resp: Option<Bytes>)
    requires Step(rx, resp).Answer?
    ensures var r := Step(rx, resp);
      ErrorFree(resp) ==> ErrorFree(Some(r.resp)) && ReportsNoError(r.reply)
    ensures var r := Step(rx, resp);
      Short(resp) ==> Short(Some(r.resp)) && DecodeMark(r.reply[..4]) == (true, |r.reply| - 4)
  {
    var r := Step(rx, resp);
    assert |READ_RESP| == 36;
    assert READ_RESP[..4] == [0x00, 0x00, 0x00, 0x00];
    assert CREATE_LINK_RESP[..4] == [0x00, 0x00, 0x00, 0x00];
    if ErrorFree(resp) {
      assert |r.resp| >= 4;
      assert r.reply[28..32] == r.resp[..4];
    }
  }

  /** What one core connection did, record by record, up to its end. */
  datatype End = Closed(reason: StopReason) | Crashed(cause: CrashCause) | Open
  datatype Session = Session(replies: seq<Bytes>, sent: seq<Directive>, resp: Option<Bytes>, end: End)

  /** The receive loop over the records of one connection, until a step
      closes it or crashes (`Open`: the records ran out and the loop waits).
      It sends at most one reply per record. */
  function RunSession(rxs: seq<Bytes>, resp: Option<Bytes>): (r: Session)
    ensures |r.replies| <= |rxs|
    decreases |rxs|
  {
    if |rxs| == 0 then
      Session([], [], resp, Open)
    else
      match Step(rxs[0], resp)
      case Idle => RunSession(rxs[1..], resp)
      case Answer(reply, resp', sent) =>
        var rest := RunSession(rxs[1..], Some(resp'));
        Session([reply] + rest.replies, sent + rest.sent, rest.resp, rest.end)
      case Stop(reason) => Session([], [], resp, Closed(reason))
      case Crash(sent, cause) => Session([], sent, resp, Crashed(cause))
  }

  /** Every reply in `replies` reports error 0. */
  predicate AllReportNoError(replies: seq<Bytes>) {
    forall i :: 0 <= i < |replies| ==> ReportsNoError(replies[i])
  }

  /** The record mark of `reply` flags the last fragment and counts exactly
      the bytes that follow it. */
  predicate MarkExact(reply: Bytes) {
    |reply| >= 4 && DecodeMark(reply[..4]) == (true, |reply| - 4)
  }

  predicate AllMarksExact(replies: seq<Bytes>) {
    forall i :: 0 <= i < |replies| ==> MarkExact(replies[i])
  }

  /** A record that receives nothing leaves the connection as it was. */
  lemma RunSessionIdle(rxs: seq<Bytes>, resp: Option<Bytes>)
    requires |rxs| > 0 && Step(rxs[0], resp).Idle?
    ensures RunSession(rxs, resp) == RunSession(rxs[1..], resp)
  {
  }

  /** An answered record puts its reply in front of the rest of the connection's. */
  lemma RunSessionAnswer(rxs: seq<Bytes>, resp: Option<Bytes>, o: Outcome)
    requires |rxs| > 0 && o == Step(rxs[0], resp) && o.Answer?
    ensures var rest := RunSession(rxs[1..], Some(o.resp));
      RunSession(rxs, resp) == Session([o.reply] + rest.replies, o.sent + rest.sent, rest.resp, rest.end)
  {
  }

  /** A record that closes the connection ends it with no reply, whatever follows. */
  lemma RunSessionStop(rxs: seq<Bytes>, resp: Option<Bytes>)
    requires |rxs| > 0 && Step(rxs[0], resp).Stop?
    ensures RunSession(rxs, resp) == Session([], [], resp, Closed(Step(rxs[0], resp).reason))
  {
  }

  /** A record that crashes ends the connection after the directives it sent. */
  lemma RunSessionCrash(rxs: seq<Bytes>, resp: Option<Bytes>)
    requires |rxs| > 0 && Step(rxs[0], resp).Crash?
    ensures var o := Step(rxs[0], resp);
      RunSession(rxs, resp) == Session([], o.sent, resp, Crashed(o.cause))
  {
  }

  /** Starting from an error-free `resp`, every reply of the connection
      reports error 0, and `resp` is still error-free afterwards. */
  lemma {:induction false} SessionReportsNoError(rxs: seq<Bytes>, resp: Option<Bytes>)
    requires ErrorFree(resp)
    ensures ErrorFree(RunSession(rxs, resp).resp)
    ensures AllReportNoError(RunSession(rxs, resp).replies)
    decreases |rxs|
  {
    if |rxs| > 0 {
      var o := Step(rxs[0], resp);
      if o.Idle? {
        RunSessionIdle(rxs, resp);
        SessionReportsNoError(rxs[1..], resp);
      } else if o.Answer? {
        StepKeepsInvariants(rxs[0], resp);
        RunSessionAnswer(rxs, resp, o);
        SessionReportsNoError(rxs[1..], Some(o.resp));
        var rest := RunSession(rxs[1..], Some(o.resp)).replies;
        assert forall i :: 0 < i < |[o.reply] + rest| ==> ([o.reply] + rest)[i] == rest[i - 1];
      }
    }
  }

  /** Starting from a short `resp`, the record mark of every reply flags the
      last fragment and counts exactly the bytes that follow it. */
  lemma {:induction false} SessionMarksExact(rxs: seq<Bytes>, resp: Option<Bytes>)
    requires Short(resp)
    ensures Short(RunSession(rxs, resp).resp)
    ensures AllMarksExact(RunSession(rxs, resp).replies)
    decreases |rxs|
  {
    if |rxs| > 0 {
      var o := Step(rxs[0], resp);
      if o.Idle? {
        RunSessionIdle(rxs, resp);
        SessionMarksExact(rxs[1..], resp);
      } else if o.Answer? {
        StepKeepsInvariants(rxs[0], resp);
        RunSessionAnswer(rxs, resp, o);
        SessionMarksExact(rxs[1..], Some(o.resp));
        var rest := RunSession(rxs[1..], Some(o.resp)).replies;
        assert MarkExact(o.reply);
        assert forall i :: 0 < i < |[o.reply] + rest| ==> ([o.reply] + rest)[i] == rest[i - 1];
      }
    }
  }

  /** The records of a connection run in order. Once `a` has closed the
      connection or crashed it, nothing after it is received or answered.
      While it is still open, the records of `b` run from the `resp` that `a`
      left, and their replies and directives follow those of `a`. */
  lemma {:induction false} RunSessionAppend(a: seq<Bytes>, b: seq<Bytes>, resp: Option<Bytes>)
    ensures var ra := RunSession(a, resp);
      !ra.end.Open? ==> RunSession(a + b, resp) == ra
    ensures var ra := RunSession(a, resp);
      var rb := RunSession(b, ra.resp);
      ra.end.Open? ==>
        RunSession(a + b, resp) == Session(ra.replies + rb.replies, ra.sent + rb.sent, rb.resp, rb.end)
    decreases |a|, 1
  {
    if |a| == 0 {
      assert a + b == b;
    } else {
      var o := Step(a[0], resp);
      if o.Idle? {
        AppendIdle(a, b, resp);
      } else if o.Answer? {
        AppendAnswer(a, b, resp);
      } else {
        AppendEnded(a, b, resp);
      }
    }
  }

  /** The append law when the first record of `a` receives nothing. */
  lemma {:induction false} AppendIdle(a: seq<Bytes>, b: seq<Bytes>, resp: Option<Bytes>)
    requires |a| > 0 && Step(a[0], resp).Idle?
    ensures var ra := RunSession(a, resp);
      !ra.end.Open? ==> RunSession(a + b, resp) == ra
    ensures var ra := RunSession(a, resp);
      var rb := RunSession(b, ra.resp);
      ra.end.Open? ==>
        RunSession(a + b, resp) == Session(ra.replies + rb.replies, ra.sent + rb.sent, rb.resp, rb.end)
    decreases |a|, 0
  {
    var ab := a + b;
    assert ab[0] == a[0] && ab[1..] == a[1..] + b;
    RunSessionIdle(a, resp);
    RunSessionIdle(ab, resp);
    RunSessionAppend(a[1..], b, resp);
  }

  /** The append law when the first record of `a` is answered. */
  lemma {:induction false} AppendAnswer(a: seq<Bytes>, b: seq<Bytes>, resp: Option<Bytes>)
    requires |a| > 0 && Step(a[0], resp).Answer?
    ensures var ra := RunSession(a, resp);
      !ra.end.Open? ==> RunSession(a + b, resp) == ra
    ensures var ra := RunSession(a, resp);
      var rb := RunSession(b, ra.resp);
      ra.end.Open? ==>
        RunSession(a + b, resp) == Session(ra.replies + rb.replies, ra.sent + rb.sent, rb.resp, rb.end)
    decreases |a|, 0
  {
    var o := Step(a[0], resp);
    var ab := a + b;
    assert ab[0] == a[0] && ab[1..] == a[1..] + b;
    RunSessionAnswer(a, resp, o);
    RunSessionAnswer(ab, resp, o);
    RunSessionAppend(a[1..], b, Some(o.resp));
    var r1 := RunSession(a[1..], Some(o.resp));
    PrependAppend(o.reply, o.sent, r1, RunSession(b, r1.resp));
  }

  /** The append law when the first record of `a` closes or crashes the connection. */
  lemma AppendEnded(a: seq<Bytes>, b: seq<Bytes>, resp: Option<Bytes>)
    requires |a| > 0 && (Step(a[0], resp).Stop? || Step(a[0], resp).Crash?)
    ensures !RunSession(a, resp).end.Open? && RunSession(a + b, resp) == RunSession(a, resp)
  {
    var ab := a + b;
    assert ab[0] == a[0];
    if Step(a[0], resp).Stop? {
      RunSessionStop(a, resp);
      RunSessionStop(ab, resp);
    } else {
      RunSessionCrash(a, resp);
      RunSessionCrash(ab, resp);
    }
  }

  /** Prepending one answer's reply and directives commutes with running
      more records after the rest. */
  lemma PrependAppend(reply: Bytes, sent: seq<Directive>, r1: Session, rb: Session)
    ensures Session([reply] + (r1.replies + rb.replies), sent + (r1.sent + rb.sent), rb.resp, rb.end)
         == Session([reply] + r1.replies + rb.replies, sent + r1.sent + rb.sent, rb.resp, rb.end)
  {
  }

  /** A record that closes the connection ends it there: the replies and
      directives of the records before it are kept, and the records after
      it, whatever they are, are never answered. */
  lemma StopEndsSession(a: seq<Bytes>, rx: Bytes, b: seq<Bytes>, resp: Option<Bytes>)
    requires RunSession(a, resp).end.Open?
    requires Step(rx, RunSession(a, resp).resp).Stop?
    ensures var ra := RunSession(a, resp);
      RunSession(a + [rx] + b, resp)
        == Session(ra.replies, ra.sent, ra.resp, Closed(Step(rx, ra.resp).reason))
  {
    var rest := [rx] + b;
    assert a + [rx] + b == a + rest;
    assert rest[0] == rx;
    RunSessionStop(rest, RunSession(a, resp).resp);
    RunSessionAppend(a, rest, resp);
  }

  /** A record that crashes the process ends the connection there: the
      replies of the records before it are kept, the directives it sent
      before the exception follow theirs, and the records after it are
      never answered. */
  lemma CrashEndsSession(a: seq<Bytes>, rx: Bytes, b: seq<Bytes>, resp: Option<Bytes>)
    requires RunSession(a, resp).end.Open?
    requires Step(rx, RunSession(a, resp).resp).Crash?
    ensures var ra := RunSession(a, resp);
      var o := Step(rx, ra.resp);
      RunSession(a + [rx] + b, resp) == Session(ra.replies, ra.sent + o.sent, ra.resp, Crashed(o.cause))
  {
    var rest := [rx] + b;
    assert a + [rx] + b == a + rest;
    assert rest[0] == rx;
    RunSessionCrash(rest, RunSession(a, resp).resp);
    RunSessionAppend(a, rest, resp);
  }

  /** One cycle of the server: a portmap connection, then, unless its request
      was incompatible, one core connection. A served GETPORT leaves the
      encoded port in `resp`. */
  datatype Cycle = Rejected | Cycle(portmap: PortmapOutcome, session: Session)

  function ServeCycle(pmRx: Bytes, coreRxs: seq<Bytes>, resp: Option<Bytes>): (c: Cycle)
    ensures c.Rejected? <==> !IsCoreGetPort(pmRx) && |pmRx| > 0
  {
    var pm := Portmap(pmRx);
    if pm.Incompatible? then Rejected
    else
      var resp' := if pm.Served? then Some(PORT_RESP) else resp;
      Cycle(pm, RunSession(coreRxs, resp'))
  }

  /** After a served GETPORT, a connection that starts with create_link only
      ever reports error 0. */
  lemma LinkedSessionReportsNoError(pmRx: Bytes, coreRxs: seq<Bytes>, resp: Option<Bytes>)
    requires IsCoreGetPort(pmRx)
    requires |coreRxs| > 0 && Calls(coreRxs[0], CREATE_LINK)
    ensures var c := ServeCycle(pmRx, coreRxs, resp);
      c.Cycle? && |c.session.replies| > 0
      && AllReportNoError(c.session.replies)
  {
    var first := Step(coreRxs[0], Some(PORT_RESP));
    assert first.resp == CREATE_LINK_RESP;
    assert CREATE_LINK_RESP[..4] == [0x00, 0x00, 0x00, 0x00];
    assert ReportsNoError(first.reply) by {
      assert first.reply[28..32] == CREATE_LINK_RESP[..4];
    }
    SessionReportsNoError(coreRxs[1..], Some(CREATE_LINK_RESP));
    RunSessionAnswer(coreRxs, Some(PORT_RESP), first);
    var rest := RunSession(coreRxs[1..], Some(CREATE_LINK_RESP)).replies;
    assert forall i :: 0 < i < |[first.reply] + rest| ==> ([first.reply] + rest)[i] == rest[i - 1];
  }

  /** The payload device_write repeats is stale across the two listeners: if
      the first record after a served GETPORT is a device_write that
      translates cleanly, its reply's error word is 703, the port number. */
  lemma WriteAfterPortmapReportsPort(pmRx: Bytes, coreRxs: seq<Bytes>, resp: Option<Bytes>)
    requires IsCoreGetPort(pmRx)
    requires |coreRxs| > 0 && Calls(coreRxs[0], DEVICE_WRITE)
    requires ParseCmd(WritePayload(coreRxs[0])).fault.None?
    ensures var c := ServeCycle(pmRx, coreRxs, resp);
      c.Cycle? && |c.session.replies| > 0
      && FromBytes(c.session.replies[0][28..32]) == CORE_PORT
  {
    var first := Step(coreRxs[0], Some(PORT_RESP));
    assert first.Answer? && first.resp == PORT_RESP;
    assert first.reply[28..32] == PORT_RESP;
    Int2BytesDecodes(CORE_PORT);
  }

  /** An empty portmap receive leaves `resp` as it was: the core connection
      starts from the payload the previous cycle left behind. A first
      device_write that translates cleanly is answered with that payload,
      or, when `resp` was never assigned, crashes on it. */
  lemma EmptyPortmapKeepsResp(coreRxs: seq<Bytes>, resp: Option<Bytes>)
    requires |coreRxs| > 0 && Calls(coreRxs[0], DEVICE_WRITE)
    requires ParseCmd(WritePayload(coreRxs[0])).fault.None?
    ensures var c := ServeCycle([], coreRxs, resp);
      && c.Cycle? && c.portmap.NoRequest?
      && (resp.Some? ==> |c.session.replies| > 0 && c.session.replies[0][28..] == resp.value)
      && (resp.None? ==> c.session.replies == [] && c.session.end == Crashed(RespUnbound))
  {
    var first := Step(coreRxs[0], resp);
    if resp.Some? {
      assert first.Answer? && first.reply[28..] == resp.value;
    }
  }

  /** A device_write that carries no data, because the record ends by
      offset 0x40 or its length word is 0, hands `parse_cmd` an empty line:
      `line[1]` raises IndexError before anything is sent, and no reply
      follows. */
  lemma EmptyWriteCrashes(rx: Bytes, resp: Option<Bytes>)
    requires Calls(rx, DEVICE_WRITE)
    requires |rx| <= 0x40 || FromBytes(rx[0x3C..0x40]) == 0
    ensures Step(rx, resp) == Crash([], TranslatorFault(ShortLine))
  {
    assert WritePayload(rx) == [];
  }
}

=== FILE: identify.dfy ===
/**
 Generator identification: the `*IDN?` answer has runs of spaces collapsed
 by repeating `replace(b'  ', b' ')` until nothing changes, and the driver is
 chosen from the collapsed answer. With no generator resource given, the
 bridge runs with the dummy driver.
 */
module Identify {
  import opened Bytes

  /** Two consecutive spaces start at `i`. */
  predicate DoubleAt(s: Bytes, i: int)
    requires 0 <= i < |s| - 1
  {
    s[i] == SPACE && s[i + 1] == SPACE
  }

  /** No two consecutive bytes of `s` are both spaces. */
  predicate NoDoubleSpace(s: Bytes) {
    forall i :: 0 <= i < |s| - 1 ==> !DoubleAt(s, i)
  }

  /** One `replace(b'  ', b' ')`: scanning left to right, each pair of spaces
      that does not overlap an earlier replaced pair becomes one space (so
      three spaces become two). It keeps the first byte, changes nothing
      exactly when there is no pair, and otherwise shortens the string. */
  function ReplaceDouble(s: Bytes): (r: Bytes)
    ensures |r| <= |s|
    ensures |s| > 0 ==> |r| > 0 && r[0] == s[0]
    ensures NoDoubleSpace(s) ==> r == s
    ensures !NoDoubleSpace(s) ==> |r| < |s|
    decreases |s|
  {
    if |s| < 2 then s
    else if s[0] == SPACE && s[1] == SPACE then
      assert DoubleAt(s, 0);
      [SPACE] + ReplaceDouble(s[2..])
    else
      assert NoDoubleSpace(s) <==> NoDoubleSpace(s[1..]) by {
        if NoDoubleSpace(s[1..]) {
          forall i | 0 <= i < |s| - 1 ensures !DoubleAt(s, i) {
            if i > 0 { assert !DoubleAt(s[1..], i - 1); }
          }
        }
        if NoDoubleSpace(s) {
          forall i | 0 <= i < |s[1..]| - 1 ensures !DoubleAt(s[1..], i) {
            assert !DoubleAt(s, i + 1);
          }
        }
      }
      [s[0]] + ReplaceDouble(s[1..])
  }

  /** A run of `k` spaces. */
  function Spaces(k: nat): (r: Bytes)
    ensures |r| == k && forall i :: 0 <= i < k ==> r[i] == SPACE
  {
    seq(k, _ => SPACE)
  }

  /** One pass turns a run of `k` spaces into a run of `(k + 1) / 2`: every
      pair in the run is replaced, left to right, and an odd space is kept. */
  lemma {:induction false} ReplaceRun(k: nat)
    ensures ReplaceDouble(Spaces(k)) == Spaces((k + 1) / 2)
    decreases k
  {
    if k >= 2 {
      assert Spaces(k)[2..] == Spaces(k - 2);
      ReplaceRun(k - 2);
      assert [SPACE] + Spaces((k - 1) / 2) == Spaces((k + 1) / 2);
    }
  }

  /** A leading pair of spaces becomes one space. */
  lemma ReplacePair(v: Bytes)
    ensures ReplaceDouble([SPACE, SPACE] + v) == [SPACE] + ReplaceDouble(v)
  {
    assert ([SPACE, SPACE] + v)[2..] == v;
  }

  /** A leading byte that does not start a pair is kept. */
  lemma ReplaceSingle(x: Byte, v: Bytes)
    requires !(x == SPACE && |v| > 0 && v[0] == SPACE)
    ensures ReplaceDouble([x] + v) == [x] + ReplaceDouble(v)
  {
    assert ([x] + v)[1..] == v;
  }

  /** A pair of spaces never spans a byte that is not a space: the pass
      treats the two sides of such a byte separately, so it replaces the
      pairs of every run, not only the first. */
  lemma {:induction false} ReplaceAtNonSpace(a: Bytes, c: Byte, b: Bytes)
    requires c != SPACE
    ensures ReplaceDouble(a + [c] + b) == ReplaceDouble(a) + [c] + ReplaceDouble(b)
    decreases |a|
  {
    if |a| == 0 {
      assert a + [c] + b == [c] + b;
      ReplaceSingle(c, b);
    } else if |a| >= 2 && a[0] == SPACE && a[1] == SPACE {
      var u := a[2..];
      assert a == [SPACE, SPACE] + u;
      ReplaceAtNonSpace(u, c, b);
      ReplacePairStep(u, c, b);
    } else {
      var u := a[1..];
      assert a == [a[0]] + u;
      ReplaceAtNonSpace(u, c, b);
      ReplaceByteStep(a[0], u, c, b);
    }
  }

  /** The step of `ReplaceAtNonSpace` past a leading pair of spaces. */
  lemma ReplacePairStep(u: Bytes, c: Byte, b: Bytes)
    requires ReplaceDouble(u + [c] + b) == ReplaceDouble(u) + [c] + ReplaceDouble(b)
    ensures ReplaceDouble([SPACE, SPACE] + u + [c] + b)
         == ReplaceDouble([SPACE, SPACE] + u) + [c] + ReplaceDouble(b)
  {
    var v := u + [c] + b;
    Regroup([SPACE, SPACE], u, c, b);
    ReplacePair(v);
    ReplacePair(u);
    Glue([SPACE], ReplaceDouble([SPACE, SPACE] + u + [c] + b), ReplaceDouble(v),
      ReplaceDouble(u), ReplaceDouble(b), ReplaceDouble([SPACE, SPACE] + u), c);
  }

  /** The step of `ReplaceAtNonSpace` past a leading byte that starts no pair. */
  lemma ReplaceByteStep(x: Byte, u: Bytes, c: Byte, b: Bytes)
    requires c != SPACE && !(x == SPACE && |u| > 0 && u[0] == SPACE)
    requires ReplaceDouble(u + [c] + b) == ReplaceDouble(u) + [c] + ReplaceDouble(b)
    ensures ReplaceDouble([x] + u + [c] + b) == ReplaceDouble([x] + u) + [c] + ReplaceDouble(b)
  {
    var v := u + [c] + b;
    Regroup([x], u, c, b);
    assert v[0] == if |u| > 0 then u[0] else c;
    ReplaceSingle(x, v);
    ReplaceSingle(x, u);
    Glue([x], ReplaceDouble([x] + u + [c] + b), ReplaceDouble(v),
      ReplaceDouble(u), ReplaceDouble(b), ReplaceDouble([x] + u), c);
  }

  /** Regrouping the pieces of the two steps above. */
  lemma Glue(h: Bytes, whole: Bytes, rv: Bytes, ru: Bytes, rb: Bytes, hu: Bytes, c: Byte)
    requires whole == h + rv && rv == ru + [c] + rb && hu == h + ru
    ensures whole == hu + [c] + rb
  {
  }

  lemma Regroup(h: Bytes, u: Bytes, c: Byte, b: Bytes)
    ensures h + u + [c] + b == h + (u + [c] + b)
  {
  }

  /** The `while True` loop: replace until a pass changes nothing. The result
      has no two consecutive spaces. */
  function Collapse(s: Bytes): (r: Bytes)
    ensures NoDoubleSpace(r)
    ensures |r| <= |s|
    decreases |s|
  {
    var t := ReplaceDouble(s);
    if t == s then s else Collapse(t)
  }

  /** Reference definition: every run of spaces squeezed to a single space. */
  function Squeeze(s: Bytes): Bytes
    decreases |s|
  {
    if |s| < 2 then s
    else if s[0] == SPACE && s[1] == SPACE then Squeeze(s[1..])
    else [s[0]] + Squeeze(s[1..])
  }

  lemma SqueezeCons(c: Byte, v: Bytes)
    ensures Squeeze([c] + v) == if c == SPACE && |v| > 0 && v[0] == SPACE then Squeeze(v) else [c] + Squeeze(v)
  {
    assert ([c] + v)[1..] == v;
  }

  /** One replacement pass does not change the squeezed form. */
  lemma {:induction false} ReplaceKeepsSqueeze(s: Bytes)
    ensures Squeeze(ReplaceDouble(s)) == Squeeze(s)
    decreases |s|
  {
    if |s| < 2 {
    } else if s[0] == SPACE && s[1] == SPACE {
      ReplaceKeepsSqueeze(s[2..]);
      SqueezeCons(SPACE, ReplaceDouble(s[2..]));
      assert s[1..] == [SPACE] + s[2..];
      SqueezeCons(SPACE, s[2..]);
    } else {
      ReplaceKeepsSqueeze(s[1..]);
      SqueezeCons(s[0], ReplaceDouble(s[1..]));
      assert s == [s[0]] + s[1..];
    }
  }

  /** Squeezing changes nothing in a string without a pair of spaces. */
  lemma {:induction false} SqueezeNoDouble(s: Bytes)
    requires NoDoubleSpace(s)
    ensures Squeeze(s) == s
    decreases |s|
  {
    if |s| >= 2 {
      assert !DoubleAt(s, 0);
      assert NoDoubleSpace(s[1..]) by {
        forall i | 0 <= i < |s[1..]| - 1 ensures !DoubleAt(s[1..], i) {
          assert !DoubleAt(s, i + 1);
        }
      }
      SqueezeNoDouble(s[1..]);
      assert s == [s[0]] + s[1..];
    }
  }

  /** The replace-until-stable loop computes exactly the squeezed form. */
  lemma {:induction false} CollapseIsSqueeze(s: Bytes)
    ensures Collapse(s) == Squeeze(s)
    decreases |s|
  {
    var t := ReplaceDouble(s);
    if t == s {
      SqueezeNoDouble(Collapse(s));
    } else {
      CollapseIsSqueeze(t);
      ReplaceKeepsSqueeze(s);
    }
  }

  /** Which `send_cmd` branch is used. Its final default branch (the `else`
      after `scpi`) is never selected: the driver is always one of these three. */
  datatype Driver = Dummy | Hp8904a | Scpi

  const HP_8904A: Bytes := [0x48, 0x50, 0x20, 0x38, 0x39, 0x30, 0x34, 0x41] // "HP 8904A"

  /** No resource given (`None`) runs the dummy driver; otherwise the
      HP 8904A driver is used iff the identification, with every run of
      spaces squeezed to one, starts with "HP 8904A", and the generic SCPI
      driver for anything else. */
  function SelectDriver(id: Option<Bytes>): (d: Driver)
    ensures d == Dummy <==> id.None?
    ensures d == Hp8904a <==> id.Some? && |Squeeze(id.value)| >= 8 && Squeeze(id.value)[..8] == HP_8904A
  {
    match id
    case None => Dummy
    case Some(raw) =>
      var gid := Collapse(raw);
      CollapseIsSqueeze(raw);
      SliceMatches(gid, 0, HP_8904A);
      if Slice(gid, 0, 8) == HP_8904A then Hp8904a else Scpi
  }

  /** Extra spaces in the identification do not change the driver: an answer
      that squeezes to the same text selects the same driver. */
  lemma SpacingIrrelevant(a: Bytes, b: Bytes)
    requires Squeeze(a) == Squeeze(b)
    ensures SelectDriver(Some(a)) == SelectDriver(Some(b))
  {
    CollapseIsSqueeze(a);
    CollapseIsSqueeze(b);
  }
}

=== FILE: rendering.dfy ===
/**
 The oscilloscope's side of the command text: how a list of basic-waveform
 settings and output switches is written out as a `C<n>:BSWV ...;OUTP ...`
 line. It is the partner of the translator: parsing a rendered line gives
 back exactly the directives the rendered commands stand for, in order.
 */
module Rendering {
  import opened Bytes
  import opened Translator

  datatype Key = FrqKey | AmpKey | AmpDbmKey | WvtpKey | OfstKey | PhseKey
  /** A BSWV argument: a keyword with its value, or a word the bridge does
      not know (firmware variants add some), written on its own. */
  datatype Setting = Setting(key: Key, value: Bytes) | Other(word: Bytes)
  /** An OUTP argument: ON, OFF, a load with its value, or an unknown word. */
  datatype Switch = SwitchOn | SwitchOff | Load(ohms: Bytes) | Extra(word: Bytes)
  datatype Command = Bswv(settings: seq<Setting>) | Outp(switches: seq<Switch>)

  function KeyBytes(k: Key): Bytes {
    match k
    case FrqKey => FRQ
    case AmpKey => AMP
    case AmpDbmKey => AMPDBM
    case WvtpKey => WVTP
    case OfstKey => OFST
    case PhseKey => PHSE
  }

  /** The arguments one setting is written as: `key,value`, or the unknown word alone. */
  function SettingWords(st: Setting): seq<Bytes> {
    match st
    case Setting(k, v) => [KeyBytes(k), v]
    case Other(w) => [w]
  }

  /** What one setting asks of the generator: waveform, offset, phase and
      unknown words ask nothing. */
  function SettingDirective(st: Setting): seq<Directive> {
    match st
    case Setting(FrqKey, v) => [Freq(v)]
    case Setting(AmpKey, v) => [Ampl(v)]
    case Setting(AmpDbmKey, v) => [Dbm(v)]
    case _ => []
  }

  /** The settings as `key,value,key,value,...` arguments. */
  function SettingArgs(ss: seq<Setting>): seq<Bytes>
    decreases |ss|
  {
    if |ss| == 0 then [] else SettingWords(ss[0]) + SettingArgs(ss[1..])
  }

  function SettingDirectives(ss: seq<Setting>): seq<Directive>
    decreases |ss|
  {
    if |ss| == 0 then [] else SettingDirective(ss[0]) + SettingDirectives(ss[1..])
  }

  /** The arguments one switch is written as. */
  function SwitchWords(x: Switch): seq<Bytes> {
    match x
    case SwitchOn => [ON]
    case SwitchOff => [OFF]
    case Load(ohms) => [LOAD, ohms]
    case Extra(w) => [w]
  }

  /** What one switch asks of the generator: a load setting or an unknown word asks nothing. */
  function SwitchDirective(x: Switch): seq<Directive> {
    match x
    case SwitchOn => [On]
    case SwitchOff => [Off]
    case _ => []
  }

  function SwitchArgs(xs: seq<Switch>): seq<Bytes>
    decreases |xs|
  {
    if |xs| == 0 then [] else SwitchWords(xs[0]) + SwitchArgs(xs[1..])
  }

  function SwitchDirectives(xs: seq<Switch>): seq<Directive>
    decreases |xs|
  {
    if |xs| == 0 then [] else SwitchDirective(xs[0]) + SwitchDirectives(xs[1..])
  }

  function Token(c: Command): Bytes {
    if c.Bswv? then BSWV else OUTP
  }

  function Args(c: Command): seq<Bytes> {
    if c.Bswv? then SettingArgs(c.settings) else SwitchArgs(c.switches)
  }

  function CommandDirectives(c: Command): seq<Directive> {
    if c.Bswv? then SettingDirectives(c.settings) else SwitchDirectives(c.switches)
  }

  function LineDirectives(cmds: seq<Command>): seq<Directive>
    decreases |cmds|
  {
    if |cmds| == 0 then [] else CommandDirectives(cmds[0]) + LineDirectives(cmds[1..])
  }

  /** `TOKEN arg,arg,...` */
  function RenderCommand(c: Command): Bytes {
    Token(c) + [SPACE] + Join(Args(c), COMMA)
  }

  function RenderCommands(cmds: seq<Command>): seq<Bytes> {
    seq(|cmds|, i requires 0 <= i < |cmds| => RenderCommand(cmds[i]))
  }

  /** `C<channel>:cmd;cmd;...` */
  function RenderLine(channel: Byte, cmds: seq<Command>): Bytes {
    [0x43, channel, 0x3A] + Join(RenderCommands(cmds), SEMICOLON)
  }

  /** An argument the rendering can carry: not empty, and free of separators,
      of `?` and of whitespace. Decimal numbers such as `1000` or `-2.5` are plain. */
  predicate Plain(a: Bytes) {
    |a| > 0 && forall k :: 0 <= k < |a| ==> a[k] != COMMA && a[k] != SEMICOLON && a[k] != QUERY && !IsSpace(a[k])
  }

  /** The unknown words among the settings are not BSWV keywords. */
  predicate OthersUnknown(ss: seq<Setting>) {
    forall i :: 0 <= i < |ss| ==> ss[i].Other? ==> !BswvKeyword(ss[i].word)
  }

  /** The unknown words among the switches are not OUTP keywords. */
  predicate ExtrasUnknown(xs: seq<Switch>) {
    forall i :: 0 <= i < |xs| ==> xs[i].Extra? ==> !OutpKeyword(xs[i].word)
  }

  predicate ValidSetting(s: Setting) {
    match s
    case Setting(_, v) => Plain(v)
    case Other(w) => Plain(w) && !BswvKeyword(w)
  }

  predicate ValidSwitch(x: Switch) {
    match x
    case Load(ohms) => Plain(ohms)
    case Extra(w) => Plain(w) && !OutpKeyword(w)
    case _ => true
  }

  predicate ValidSettings(ss: seq<Setting>) {
    forall i :: 0 <= i < |ss| ==> ValidSetting(ss[i])
  }

  predicate ValidCommand(c: Command) {
    match c
    case Bswv(ss) => |ss| > 0 && forall i :: 0 <= i < |ss| ==> ValidSetting(ss[i])
    case Outp(xs) => |xs| > 0 && forall i :: 0 <= i < |xs| ==> ValidSwitch(xs[i])
  }

  predicate ValidCommands(cmds: seq<Command>) {
    forall i :: 0 <= i < |cmds| ==> ValidCommand(cmds[i])
  }

  predicate ValidLine(cmds: seq<Command>) {
    |cmds| > 0 && ValidCommands(cmds)
  }

  lemma {:induction false} SettingArgsPlain(ss: seq<Setting>)
    requires forall i :: 0 <= i < |ss| ==> ValidSetting(ss[i])
    ensures |SettingArgs(ss)| >= |ss|
    ensures forall i :: 0 <= i < |SettingArgs(ss)| ==> Plain(SettingArgs(ss)[i])
    decreases |ss|
  {
    if |ss| > 0 {
      SettingArgsPlain(ss[1..]);
      assert ValidSetting(ss[0]);
      if ss[0].Setting? {
        assert Plain(KeyBytes(ss[0].key));
      }
    }
  }

  lemma {:induction false} SwitchArgsPlain(xs: seq<Switch>)
    requires forall i :: 0 <= i < |xs| ==> ValidSwitch(xs[i])
    ensures |SwitchArgs(xs)| >= |xs|
    ensures forall i :: 0 <= i < |SwitchArgs(xs)| ==> Plain(SwitchArgs(xs)[i])
    decreases |xs|
  {
    if |xs| > 0 {
      SwitchArgsPlain(xs[1..]);
      assert ValidSwitch(xs[0]);
      assert Plain(ON) && Plain(OFF) && Plain(LOAD);
    }
  }

  lemma ArgsPlain(c: Command)
    requires ValidCommand(c)
    ensures |Args(c)| > 0
    ensures forall i :: 0 <= i < |Args(c)| ==> Plain(Args(c)[i])
  {
    if c.Bswv? {
      SettingArgsPlain(c.settings);
    } else {
      SwitchArgsPlain(c.switches);
    }
  }

  /** The rendered words of `ss` lie in `args`, one setting after the
      other, from index `n` up to index `e`. */
  predicate SettingsAt(args: seq<Bytes>, n: nat, ss: seq<Setting>, e: nat)
    decreases |ss|
  {
    if |ss| == 0 then n == e <= |args|
    else
      var w := SettingWords(ss[0]);
      n + |w| <= |args| && args[n..n + |w|] == w && SettingsAt(args, n + |w|, ss[1..], e)
  }

  /** Rendered settings anywhere in an argument list: the BSWV walk started
      at their first word sends exactly their directives, in order, then
      carries on with whatever follows them. A keyword is skipped with its
      value, an unknown word on its own. */
  lemma {:induction false} WalkBswvSettings(args: seq<Bytes>, n: nat, ss: seq<Setting>, e: nat)
    requires OthersUnknown(ss) && SettingsAt(args, n, ss, e)
    ensures WalkBswv(args, n) == Parsed(SettingDirectives(ss) + WalkBswv(args, e).sent, WalkBswv(args, e).fault)
    decreases |ss|
  {
    if |ss| == 0 {
      assert SettingDirectives(ss) + WalkBswv(args, e).sent == WalkBswv(args, e).sent;
    } else {
      OthersUnknownTail(ss);
      WalkBswvSettings(args, n + |SettingWords(ss[0])|, ss[1..], e);
      BswvSettingsStep(args, n, ss, WalkBswv(args, e));
    }
  }

  /** The inductive step of `WalkBswvSettings`: the first setting, then the rest. */
  lemma BswvSettingsStep(args: seq<Bytes>, n: nat, ss: seq<Setting>, after: Parsed)
    requires |ss| > 0 && (ss[0].Other? ==> !BswvKeyword(ss[0].word))
    requires var w := SettingWords(ss[0]); n + |w| <= |args| && args[n..n + |w|] == w
    requires WalkBswv(args, n + |SettingWords(ss[0])|) == Parsed(SettingDirectives(ss[1..]) + after.sent, after.fault)
    ensures WalkBswv(args, n) == Parsed(SettingDirectives(ss) + after.sent, after.fault)
  {
    BswvHeadStep(args, n, ss[0]);
    SettingsCons(ss);
    DirectivesAssoc(SettingDirective(ss[0]), SettingDirectives(ss[1..]), after.sent);
  }

  /** The first setting of a list stands for what it does on its own. */
  lemma SettingsCons(ss: seq<Setting>)
    requires |ss| > 0
    ensures SettingDirectives(ss) == SettingDirective(ss[0]) + SettingDirectives(ss[1..])
  {
  }

  /** Settings rendered as one block of arguments lie there one after the other. */
  lemma {:induction false} SettingsAtBlock(args: seq<Bytes>, n: nat, ss: seq<Setting>)
    requires n + |SettingArgs(ss)| <= |args| && args[n..n + |SettingArgs(ss)|] == SettingArgs(ss)
    ensures SettingsAt(args, n, ss, n + |SettingArgs(ss)|)
    decreases |ss|
  {
    if |ss| > 0 {
      var w := SettingWords(ss[0]);
      assert SettingArgs(ss) == w + SettingArgs(ss[1..]);
      SliceSplit(args, n, w, SettingArgs(ss[1..]));
      SettingsAtBlock(args, n + |w|, ss[1..]);
    }
  }

  /** The BSWV walk over rendered settings sends exactly the settings'
      directives and does not fail. */
  lemma WalkBswvRendered(ss: seq<Setting>)
    requires OthersUnknown(ss)
    ensures WalkBswv(SettingArgs(ss), 0) == Parsed(SettingDirectives(ss), None)
  {
    SettingsAtWhole(ss);
    WalkBswvSettings(SettingArgs(ss), 0, ss, |SettingArgs(ss)|);
    assert SettingDirectives(ss) + [] == SettingDirectives(ss);
  }

  /** Rendered settings fill their own argument list from start to end. */
  lemma SettingsAtWhole(ss: seq<Setting>)
    ensures SettingsAt(SettingArgs(ss), 0, ss, |SettingArgs(ss)|)
  {
    var args := SettingArgs(ss);
    assert args[0..|args|] == args;
    SettingsAtBlock(args, 0, ss);
  }

  /** A value keyword left without its value after rendered settings: the
      walk sends the settings' directives, in order, and then fails with a
      missing value for that keyword. */
  lemma DanglingValueFaults(ss: seq<Setting>, k: Bytes)
    requires TakesValue(k) && OthersUnknown(ss)
    ensures WalkBswv(SettingArgs(ss) + [k], 0) == Parsed(SettingDirectives(ss), Some(MissingValue(k)))
  {
    var args := SettingArgs(ss) + [k];
    var m := |SettingArgs(ss)|;
    assert args[0..m] == SettingArgs(ss);
    SettingsAtBlock(args, 0, ss);
    WalkBswvSettings(args, 0, ss, m);
    assert args[m] == k && m + 1 == |args|;
    assert WalkBswv(args, m) == Parsed([], Some(MissingValue(k)));
    assert SettingDirectives(ss) + [] == SettingDirectives(ss);
  }

  /** Words laid out as `w` then `t` from index `n`: each part sits where
      it is expected. */
  lemma SliceSplit(args: seq<Bytes>, n: nat, w: seq<Bytes>, t: seq<Bytes>)
    requires n + |w| + |t| <= |args| && args[n..n + |w + t|] == w + t
    ensures args[n..n + |w|] == w
    ensures args[n + |w|..n + |w| + |t|] == t
  {
    var s := args[n..n + |w + t|];
    assert s[..|w|] == w;
    assert s[|w|..] == t;
    assert args[n..n + |w|] == s[..|w|];
    assert args[n + |w|..n + |w| + |t|] == s[|w|..];
  }

  lemma OthersUnknownTail(ss: seq<Setting>)
    requires |ss| > 0 && OthersUnknown(ss)
    ensures OthersUnknown(ss[1..])
  {
    forall i | 0 <= i < |ss[1..]| ensures ss[1..][i].Other? ==> !BswvKeyword(ss[1..][i].word) {
      assert ss[1..][i] == ss[i + 1];
    }
  }

  /** One setting rendered at `n`: the walk sends its directive and resumes
      right after its arguments. */
  lemma BswvHeadStep(args: seq<Bytes>, n: nat, st: Setting)
    requires st.Other? ==> !BswvKeyword(st.word)
    requires n + |SettingWords(st)| <= |args| && args[n..n + |SettingWords(st)|] == SettingWords(st)
    ensures var rest := WalkBswv(args, n + |SettingWords(st)|);
      WalkBswv(args, n) == Parsed(SettingDirective(st) + rest.sent, rest.fault)
  {
    match st
    case Setting(key, v) =>
      assert args[n] == KeyBytes(key) && args[n + 1] == v;
    case Other(w) =>
      assert args[n] == w;
  }

  /** The rendered words of `xs` lie in `args`, one switch after the
      other, from index `n` up to index `e`. */
  predicate SwitchesAt(args: seq<Bytes>, n: nat, xs: seq<Switch>, e: nat)
    decreases |xs|
  {
    if |xs| == 0 then n == e <= |args|
    else
      var w := SwitchWords(xs[0]);
      n + |w| <= |args| && args[n..n + |w|] == w && SwitchesAt(args, n + |w|, xs[1..], e)
  }

  /** Rendered switches anywhere in an argument list: the OUTP walk started
      at their first word sends exactly their directives, in order, then
      carries on with whatever follows them. A load is skipped with its
      value, an unknown word on its own. */
  lemma {:induction false} WalkOutpSwitches(args: seq<Bytes>, n: nat, xs: seq<Switch>, e: nat)
    requires ExtrasUnknown(xs) && SwitchesAt(args, n, xs, e)
    ensures WalkOutp(args, n) == Parsed(SwitchDirectives(xs) + WalkOutp(args, e).sent, WalkOutp(args, e).fault)
    decreases |xs|
  {
    if |xs| == 0 {
      assert SwitchDirectives(xs) + WalkOutp(args, e).sent == WalkOutp(args, e).sent;
    } else {
      ExtrasUnknownTail(xs);
      WalkOutpSwitches(args, n + |SwitchWords(xs[0])|, xs[1..], e);
      OutpSwitchesStep(args, n, xs, WalkOutp(args, e));
    }
  }

  /** The inductive step of `WalkOutpSwitches`: the first switch, then the rest. */
  lemma OutpSwitchesStep(args: seq<Bytes>, n: nat, xs: seq<Switch>, after: Parsed)
    requires |xs| > 0 && (xs[0].Extra? ==> !OutpKeyword(xs[0].word))
    requires var w := SwitchWords(xs[0]); n + |w| <= |args| && args[n..n + |w|] == w
    requires WalkOutp(args, n + |SwitchWords(xs[0])|) == Parsed(SwitchDirectives(xs[1..]) + after.sent, after.fault)
    ensures WalkOutp(args, n) == Parsed(SwitchDirectives(xs) + after.sent, after.fault)
  {
    OutpHeadStep(args, n, xs[0]);
    SwitchesCons(xs);
    DirectivesAssoc(SwitchDirective(xs[0]), SwitchDirectives(xs[1..]), after.sent);
  }

  /** The first switch of a list stands for what it does on its own. */
  lemma SwitchesCons(xs: seq<Switch>)
    requires |xs| > 0
    ensures SwitchDirectives(xs) == SwitchDirective(xs[0]) + SwitchDirectives(xs[1..])
  {
  }

  /** Switches rendered as one block of arguments lie there one after the other. */
  lemma {:induction false} SwitchesAtBlock(args: seq<Bytes>, n: nat, xs: seq<Switch>)
    requires n + |SwitchArgs(xs)| <= |args| && args[n..n + |SwitchArgs(xs)|] == SwitchArgs(xs)
    ensures SwitchesAt(args, n, xs, n + |SwitchArgs(xs)|)
    decreases |xs|
  {
    if |xs| > 0 {
      var w := SwitchWords(xs[0]);
      assert SwitchArgs(xs) == w + SwitchArgs(xs[1..]);
      SliceSplit(args, n, w, SwitchArgs(xs[1..]));
      SwitchesAtBlock(args, n + |w|, xs[1..]);
    }
  }

  /** The OUTP walk over rendered switches sends exactly the switches'
      directives. */
  lemma WalkOutpRendered(xs: seq<Switch>)
    requires ExtrasUnknown(xs)
    ensures WalkOutp(SwitchArgs(xs), 0) == Parsed(SwitchDirectives(xs), None)
  {
    SwitchesAtWhole(xs);
    WalkOutpSwitches(SwitchArgs(xs), 0, xs, |SwitchArgs(xs)|);
    assert SwitchDirectives(xs) + [] == SwitchDirectives(xs);
  }

  /** Rendered switches fill their own argument list from start to end. */
  lemma SwitchesAtWhole(xs: seq<Switch>)
    ensures SwitchesAt(SwitchArgs(xs), 0, xs, |SwitchArgs(xs)|)
  {
    var args := SwitchArgs(xs);
    assert args[0..|args|] == args;
    SwitchesAtBlock(args, 0, xs);
  }

  lemma ExtrasUnknownTail(xs: seq<Switch>)
    requires |xs| > 0 && ExtrasUnknown(xs)
    ensures ExtrasUnknown(xs[1..])
  {
    forall i | 0 <= i < |xs[1..]| ensures xs[1..][i].Extra? ==> !OutpKeyword(xs[1..][i].word) {
      assert xs[1..][i] == xs[i + 1];
    }
  }

  /** One switch rendered at `n`: the walk sends its directive and resumes
      right after its arguments. */
  lemma OutpHeadStep(args: seq<Bytes>, n: nat, x: Switch)
    requires x.Extra? ==> !OutpKeyword(x.word)
    requires n + |SwitchWords(x)| <= |args| && args[n..n + |SwitchWords(x)|] == SwitchWords(x)
    ensures var rest := WalkOutp(args, n + |SwitchWords(x)|);
      WalkOutp(args, n) == Parsed(SwitchDirective(x) + rest.sent, rest.fault)
  {
    match x
    case SwitchOn => assert args[n] == ON;
    case SwitchOff => assert args[n] == OFF;
    case Load(ohms) => assert args[n] == LOAD;
    case Extra(w) => assert args[n] == w;
  }

  /** A rendered command contains no `;`, no `?`, and ends with a plain byte. */
  lemma RenderedCommandShape(c: Command)
    requires ValidCommand(c)
    ensures SEMICOLON !in RenderCommand(c)
    ensures QUERY !in RenderCommand(c)
    ensures |RenderCommand(c)| > 0
    ensures var rc := RenderCommand(c); rc[|rc| - 1] != QUERY && !IsSpace(rc[|rc| - 1])
  {
    var args := Args(c);
    ArgsPlain(c);
    JoinAvoids(args, COMMA, SEMICOLON);
    JoinAvoids(args, COMMA, QUERY);
    JoinLast(args, COMMA);
    var last := args[|args| - 1];
    assert Plain(last);
  }

  /** Parsing one rendered command gives back its directives. */
  lemma CommandRoundTrip(c: Command)
    requires ValidCommand(c)
    ensures ParseCommand(RenderCommand(c)) == Parsed(CommandDirectives(c), None)
  {
    var rc := RenderCommand(c);
    var args := Args(c);
    ArgsPlain(c);
    assert rc[..4] == Token(c);
    assert Slice(rc, 0, 4) == Token(c);
    assert From(rc, 5) == Join(args, COMMA);
    forall i | 0 <= i < |args| ensures COMMA !in args[i] {
      assert Plain(args[i]);
    }
    SplitJoin(args, COMMA);
    if c.Bswv? {
      assert OthersUnknown(c.settings) by {
        forall i | 0 <= i < |c.settings| ensures c.settings[i].Other? ==> !BswvKeyword(c.settings[i].word) {
          assert ValidSetting(c.settings[i]);
        }
      }
      WalkBswvRendered(c.settings);
      assert [] + args == args;
    } else {
      assert ExtrasUnknown(c.switches) by {
        forall i | 0 <= i < |c.switches| ensures c.switches[i].Extra? ==> !OutpKeyword(c.switches[i].word) {
          assert ValidSwitch(c.switches[i]);
        }
      }
      WalkOutpRendered(c.switches);
      assert [] + args == args;
    }
  }

  lemma {:induction false} CommandsRoundTrip(cmds: seq<Command>)
    requires ValidCommands(cmds)
    ensures ParseCommands(RenderCommands(cmds)) == Parsed(LineDirectives(cmds), None)
    decreases |cmds|
  {
    if |cmds| > 0 {
      assert ValidCommand(cmds[0]);
      CommandRoundTrip(cmds[0]);
      ValidCommandsTail(cmds);
      CommandsRoundTrip(cmds[1..]);
      CommandsConsStep(cmds);
    }
  }

  lemma ValidCommandsTail(cmds: seq<Command>)
    requires |cmds| > 0 && ValidCommands(cmds)
    ensures ValidCommands(cmds[1..])
  {
    forall i | 0 <= i < |cmds[1..]| ensures ValidCommand(cmds[1..][i]) {
      assert cmds[1..][i] == cmds[i + 1];
    }
  }

  /** A first command that parses cleanly followed by rendered commands that
      parse cleanly: the line's directives come out in order. */
  lemma CommandsConsStep(cmds: seq<Command>)
    requires |cmds| > 0
    requires ParseCommand(RenderCommand(cmds[0])) == Parsed(CommandDirectives(cmds[0]), None)
    requires ParseCommands(RenderCommands(cmds[1..])) == Parsed(LineDirectives(cmds[1..]), None)
    ensures ParseCommands(RenderCommands(cmds)) == Parsed(LineDirectives(cmds), None)
  {
    RenderCommandsCons(cmds);
  }

  lemma RenderCommandsCons(cmds: seq<Command>)
    requires |cmds| > 0
    ensures RenderCommands(cmds)[0] == RenderCommand(cmds[0])
    ensures RenderCommands(cmds)[1..] == RenderCommands(cmds[1..])
  {
    assert forall i | 0 <= i < |cmds| - 1 :: cmds[1..][i] == cmds[i + 1];
  }

  /** A BSWV command whose last argument is a value keyword without its value. */
  function RenderDangling(ss: seq<Setting>, k: Bytes): Bytes {
    BSWV + [SPACE] + Join(SettingArgs(ss) + [k], COMMA)
  }

  /** Parsing such a command sends the settings' directives and then fails
      with a missing value for the dangling keyword. */
  lemma DanglingCommandFaults(ss: seq<Setting>, k: Bytes)
    requires TakesValue(k)
    requires ValidSettings(ss)
    ensures ParseCommand(RenderDangling(ss, k)) == Parsed(SettingDirectives(ss), Some(MissingValue(k)))
  {
    var rc := RenderDangling(ss, k);
    var args := SettingArgs(ss) + [k];
    assert ParseCommand(rc) == WalkBswv(args, 0) by {
      assert Slice(rc, 0, 4) == BSWV && From(rc, 5) == Join(args, COMMA) by {
        assert rc[..4] == BSWV;
      }
      DanglingArgsSplit(ss, k);
      BswvCommandWalks(rc, args);
    }
    assert WalkBswv(args, 0) == Parsed(SettingDirectives(ss), Some(MissingValue(k))) by {
      ValidSettingsUnknown(ss);
      DanglingValueFaults(ss, k);
      assert [] + SettingArgs(ss) + [k] == args;
    }
  }

  lemma ValidSettingsUnknown(ss: seq<Setting>)
    requires ValidSettings(ss)
    ensures OthersUnknown(ss)
  {
    forall i | 0 <= i < |ss| ensures ss[i].Other? ==> !BswvKeyword(ss[i].word) {
      assert ValidSetting(ss[i]);
    }
  }

  /** Plain arguments joined with commas split back apart. */
  lemma PlainArgsSplit(args: seq<Bytes>)
    requires |args| > 0 && forall i :: 0 <= i < |args| ==> Plain(args[i])
    ensures Split(Join(args, COMMA), COMMA) == args
  {
    forall i | 0 <= i < |args| ensures COMMA !in args[i] {
      assert Plain(args[i]);
    }
    SplitJoin(args, COMMA);
  }

  /** The arguments of a dangling command split back apart at the commas. */
  lemma DanglingArgsSplit(ss: seq<Setting>, k: Bytes)
    requires TakesValue(k)
    requires ValidSettings(ss)
    ensures Split(Join(SettingArgs(ss) + [k], COMMA), COMMA) == SettingArgs(ss) + [k]
  {
    var front := SettingArgs(ss);
    SettingArgsPlain(ss);
    ValueKeywordPlain(k);
    PlainArgsAppend(front, k);
  }

  lemma ValueKeywordPlain(k: Bytes)
    requires TakesValue(k)
    ensures Plain(k)
  {
    forall i | 0 <= i < |k| ensures k[i] != COMMA && k[i] != SEMICOLON && k[i] != QUERY && !IsSpace(k[i]) {
      assert 0x41 <= k[i] <= 0x52;
    }
  }

  lemma PlainArgsAppend(front: seq<Bytes>, k: Bytes)
    requires Plain(k) && forall i :: 0 <= i < |front| ==> Plain(front[i])
    ensures Split(Join(front + [k], COMMA), COMMA) == front + [k]
  {
    var args := front + [k];
    forall i | 0 <= i < |args| ensures Plain(args[i]) {
      if i < |front| { assert args[i] == front[i]; }
    }
    PlainArgsSplit(args);
  }

  /** A command with the BSWV token is the BSWV walk over its arguments. */
  lemma BswvCommandWalks(rc: Bytes, args: seq<Bytes>)
    requires Slice(rc, 0, 4) == BSWV && Split(From(rc, 5), COMMA) == args
    ensures ParseCommand(rc) == WalkBswv(args, 0)
  {
  }

  /** A fault stops the line: after rendered commands, a command with a
      dangling value keyword ends the loop. What was sent before it, its
      own settings' directives included, is kept, and the commands after
      it, whatever they are, are not run. */
  lemma FaultStopsCommands(cmds: seq<Command>, ss: seq<Setting>, k: Bytes, more: seq<Bytes>)
    requires ValidCommands(cmds)
    requires TakesValue(k)
    requires ValidSettings(ss)
    ensures ParseCommands(RenderCommands(cmds) + [RenderDangling(ss, k)] + more)
      == Parsed(LineDirectives(cmds) + SettingDirectives(ss), Some(MissingValue(k)))
  {
    CommandsRoundTrip(cmds);
    DanglingCommandFaults(ss, k);
    FaultEndsCommands(RenderCommands(cmds), RenderDangling(ss, k), more);
  }

  /** A rendered line is left unchanged by `strip`, does not end in `?`,
      and holds the joined commands after its three-byte prefix. */
  lemma RenderedLineShape(channel: Byte, cmds: seq<Command>)
    requires ValidLine(cmds)
    ensures var line := RenderLine(channel, cmds);
      |line| >= 2 && Strip(line) == line && line[|line| - 1] != QUERY
    ensures From(RenderLine(channel, cmds), 3) == Join(RenderCommands(cmds), SEMICOLON)
  {
    var rcs := RenderCommands(cmds);
    var body := Join(rcs, SEMICOLON);
    var line := RenderLine(channel, cmds);
    RenderedCommandShape(cmds[|cmds| - 1]);
    assert rcs[|rcs| - 1] == RenderCommand(cmds[|cmds| - 1]);
    JoinLast(rcs, SEMICOLON);
    assert line == [0x43, channel, 0x3A] + body;
    assert line[|line| - 1] == body[|body| - 1];
    StripUnchanged(line);
  }

  lemma RenderedCommandsSplit(cmds: seq<Command>)
    requires ValidLine(cmds)
    ensures Split(Join(RenderCommands(cmds), SEMICOLON), SEMICOLON) == RenderCommands(cmds)
  {
    var rcs := RenderCommands(cmds);
    forall i | 0 <= i < |rcs| ensures SEMICOLON !in rcs[i] {
      RenderedCommandShape(cmds[i]);
    }
    SplitJoin(rcs, SEMICOLON);
  }

  /** The translator inverts the rendering: a line written from valid
      commands, on any channel, parses to exactly the directives those
      commands stand for, in order, without a fault. */
  lemma LineRoundTrip(channel: Byte, cmds: seq<Command>)
    requires ValidLine(cmds)
    ensures ParseCmd(RenderLine(channel, cmds)) == Parsed(LineDirectives(cmds), None)
  {
    var rcs := RenderCommands(cmds);
    var line := RenderLine(channel, cmds);
    assert Split(From(line, 3), SEMICOLON) == rcs by {
      RenderedLineShape(channel, cmds);
      RenderedCommandsSplit(cmds);
    }
    assert ParseCmd(line) == ParseCommands(Split(From(line, 3), SEMICOLON)) by {
      RenderedLineShape(channel, cmds);
      ParseUnstripped(line);
    }
    assert ParseCommands(rcs) == Parsed(LineDirectives(cmds), None) by {
      CommandsRoundTrip(cmds);
    }
  }

  /** The same holds for a rendered line that arrives padded with whitespace,
      such as a trailing line feed: the padding is stripped before parsing. */
  lemma PaddedLineRoundTrip(channel: Byte, cmds: seq<Command>, w1: Bytes, w2: Bytes)
    requires ValidLine(cmds) && AllSpace(w1) && AllSpace(w2)
    ensures ParseCmd(w1 + RenderLine(channel, cmds) + w2) == Parsed(LineDirectives(cmds), None)
  {
    ParseCmdPadded(w1, RenderLine(channel, cmds), w2);
    LineRoundTrip(channel, cmds);
  }
}

=== FILE: rpc.dfy ===
/**
 ONC-RPC reply framing shared by both listeners, and the portmap responder
 that answers the one GETPORT query an oscilloscope makes to find the
 VXI-11 core channel.
 */
module Rpc {
  import opened Bytes
  import opened Codec

  /** Program number of the VXI-11 core channel, 0x000607AF (395183). */
  const CORE_PROGRAM: Bytes := [0x00, 0x06, 0x07, 0xAF]

  /** The TCP port of the core channel, announced by the portmapper. */
  const CORE_PORT: nat := 703

  /** Portmap procedure PMAPPROC_GETPORT. */
  const GETPORT: Bytes := [0x00, 0x00, 0x00, 0x03]

  /** Accepted-reply header: the transaction id echoed from request bytes
      4..8, message type REPLY (1), then zero words for MSG_ACCEPTED, the
      AUTH_NULL verifier flavour, the verifier length and SUCCESS. */
  function ReplyHeader(rx: Bytes): Bytes {
    Slice(rx, 0x04, 0x08) + [0x00, 0x00, 0x00, 0x01] + Zeros(16)
  }

  /** A full reply record: record mark, header, procedure payload. The mark
      counts exactly the bytes that follow it, with the last-fragment bit
      set, and for any request holding a whole transaction id the reply has
      the fixed 28-byte prefix before the payload. */
  function ReplyFrame(rx: Bytes, payload: Bytes): (r: Bytes)
    ensures |r| >= 4 + |payload| && r[|r| - |payload|..] == payload
    ensures |r| - 4 < HIGH_BIT ==> DecodeMark(r[..4]) == (true, |r| - 4)
    ensures |rx| >= 8 ==> |r| == 28 + |payload|
    ensures |rx| >= 8 ==> r[4..8] == rx[4..8]
    ensures |rx| >= 8 ==> r[8..12] == [0x00, 0x00, 0x00, 0x01]
    ensures |rx| >= 8 ==> forall k :: 12 <= k < 28 ==> r[k] == 0
  {
    var hdr := ReplyHeader(rx);
    RecordMarkDecodes(|hdr| + |payload|);
    var r := RecordMark(|hdr| + |payload|) + hdr + payload;
    assert r[..4] == RecordMark(|hdr| + |payload|);
    r
  }

  /** What the portmap listener does with one received buffer. */
  datatype PortmapOutcome =
    | NoRequest             // nothing received: close, go on to the core listener
    | Incompatible          // not GETPORT for the core program: drop, no reply
    | Served(reply: Bytes)  // the reply sent before going on to the core listener

  /** A GETPORT call (procedure at 0x18) asking for the core program (program at 0x2C). */
  predicate IsCoreGetPort(rx: Bytes) {
    |rx| >= 0x30 && rx[0x18..0x1C] == GETPORT && rx[0x2C..0x30] == CORE_PROGRAM
  }

  /** The portmap responder. A reply is sent iff the request is a GETPORT for
      the core program; it is 32 bytes: record mark 0x8000001C, the echoed
      transaction id, the accepted-reply words, and port 703. */
  function Portmap(rx: Bytes): (r: PortmapOutcome)
    ensures r.NoRequest? <==> |rx| == 0
    ensures r.Served? <==> IsCoreGetPort(rx)
    ensures r.Served? ==> |r.reply| == 32
    ensures r.Served? ==> r.reply[..4] == [0x80, 0x00, 0x00, 0x1C]
    ensures r.Served? ==> r.reply[4..8] == rx[4..8]
    ensures r.Served? ==> r.reply[8..12] == [0x00, 0x00, 0x00, 0x01]
    ensures r.Served? ==> forall k :: 12 <= k < 28 ==> r.reply[k] == 0
    ensures r.Served? ==> FromBytes(r.reply[28..]) == CORE_PORT
  {
    SliceMatches(rx, 0x18, GETPORT);
    SliceMatches(rx, 0x2C, CORE_PROGRAM);
    if |rx| == 0 then
      NoRequest
    else if Slice(rx, 0x18, 0x1C) != GETPORT || Slice(rx, 0x2C, 0x30) != CORE_PROGRAM then
      Incompatible
    else
      var reply := ReplyFrame(rx, Int2Bytes(CORE_PORT));
      Int2BytesDecodes(CORE_PORT);
      assert reply[28..] == Int2Bytes(CORE_PORT);
      assert reply[..4] == RecordMark(28);
      Served(reply)
  }
}

=== FILE: translator.dfy ===
/**
 The command translator `parse_cmd`: turns the oscilloscope's device_write
 text, such as `C1:BSWV FRQ,1000,AMP,2.5` or `C1:OUTP ON`, into the
 generator directives it sends, in payload order. Argument values stay the
 raw bytes they arrived as.
 */
module Translator {
  import opened Bytes

  /** What `parse_cmd` asks the generator driver to do (`send_cmd`). */
  datatype Directive =
    | Freq(hz: Bytes)    // "freq"
    | Ampl(vpp: Bytes)   // "ampl", volts peak to peak
    | Dbm(dbm: Bytes)    // "dbm"
    | On                 // "on"
    | Off                // "off"

  /** The IndexError paths of `parse_cmd`. */
  datatype Fault =
    | ShortLine                // `line[1]` on a stripped line shorter than 2 bytes
    | MissingValue(keyword: Bytes)  // `args[n+1]` after FRQ, AMP or AMPDBM as the last argument

  /** Directives sent, in order, and the fault that stopped the walk, if any:
      everything sent before a fault has already reached the generator. */
  datatype Parsed = Parsed(sent: seq<Directive>, fault: Option<Fault>)

  const QUERY: Byte := 0x3F      // '?'
  const SEMICOLON: Byte := 0x3B  // ';'
  const COMMA: Byte := 0x2C      // ','

  const BSWV: Bytes := [0x42, 0x53, 0x57, 0x56]              // "BSWV"
  const OUTP: Bytes := [0x4F, 0x55, 0x54, 0x50]              // "OUTP"
  const FRQ: Bytes := [0x46, 0x52, 0x51]                     // "FRQ"
  const AMP: Bytes := [0x41, 0x4D, 0x50]                     // "AMP"
  const AMPDBM: Bytes := [0x41, 0x4D, 0x50, 0x44, 0x42, 0x4D] // "AMPDBM"
  const WVTP: Bytes := [0x57, 0x56, 0x54, 0x50]              // "WVTP"
  const OFST: Bytes := [0x4F, 0x46, 0x53, 0x54]              // "OFST"
  const PHSE: Bytes := [0x50, 0x48, 0x53, 0x45]              // "PHSE"
  const ON: Bytes := [0x4F, 0x4E]                            // "ON"
  const OFF: Bytes := [0x4F, 0x46, 0x46]                     // "OFF"
  const LOAD: Bytes := [0x4C, 0x4F, 0x41, 0x44]              // "LOAD"

  /** The BSWV keywords whose value is turned into a directive. */
  predicate TakesValue(a: Bytes) {
    a == FRQ || a == AMP || a == AMPDBM
  }

  /** Every word the BSWV walk acts on; any other argument is skipped alone. */
  predicate BswvKeyword(a: Bytes) {
    TakesValue(a) || a == WVTP || a == OFST || a == PHSE
  }

  /** Every word the OUTP walk acts on; any other argument is skipped alone. */
  predicate OutpKeyword(a: Bytes) {
    a == ON || a == OFF || a == LOAD
  }

  function Emit(d: Directive, p: Parsed): Parsed {
    Parsed([d] + p.sent, p.fault)
  }

  /** The BSWV argument walk from index `n`. It only ever sets frequency or
      amplitude; it can fail only on a value keyword in last position; and
      with no value keyword left it sends nothing and cannot fail. */
  function WalkBswv(args: seq<Bytes>, n: nat): (r: Parsed)
    ensures forall d :: d in r.sent ==> d.Freq? || d.Ampl? || d.Dbm?
    ensures r.fault.Some? ==> |args| > 0 && TakesValue(args[|args| - 1]) && r.fault == Some(MissingValue(args[|args| - 1]))
    ensures (forall k :: n <= k < |args| ==> !TakesValue(args[k])) ==> r == Parsed([], None)
    decreases |args| - n
  {
    if n >= |args| then
      Parsed([], None)
    else if args[n] == FRQ then
      if n + 1 < |args| then Emit(Freq(args[n + 1]), WalkBswv(args, n + 2))
      else Parsed([], Some(MissingValue(FRQ)))
    else if args[n] == AMP then
      if n + 1 < |args| then Emit(Ampl(args[n + 1]), WalkBswv(args, n + 2))
      else Parsed([], Some(MissingValue(AMP)))
    else if args[n] == AMPDBM then
      if n + 1 < |args| then Emit(Dbm(args[n + 1]), WalkBswv(args, n + 2))
      else Parsed([], Some(MissingValue(AMPDBM)))
    else if args[n] == WVTP || args[n] == OFST || args[n] == PHSE then
      WalkBswv(args, n + 2)  // wave type, offset and phase are skipped with their value
    else
      WalkBswv(args, n + 1)
  }

  /** The OUTP argument walk from index `n`. It only ever switches the
      output, never fails, and with no ON or OFF left it sends nothing. */
  function WalkOutp(args: seq<Bytes>, n: nat): (r: Parsed)
    ensures r.fault.None?
    ensures forall d :: d in r.sent ==> d.On? || d.Off?
    ensures (forall k :: n <= k < |args| ==> args[k] != ON && args[k] != OFF) ==> r.sent == []
    decreases |args| - n
  {
    if n >= |args| then
      Parsed([], None)
    else if args[n] == ON then
      Emit(On, WalkOutp(args, n + 1))
    else if args[n] == OFF then
      Emit(Off, WalkOutp(args, n + 1))
    else if args[n] == LOAD then
      WalkOutp(args, n + 2)  // the load impedance is skipped with its value
    else
      WalkOutp(args, n + 1)
  }

  /** The BSWV walk steps over an argument it does not know by one place,
      so the next argument is read as a keyword again. */
  lemma WalkBswvSkipsUnknown(args: seq<Bytes>, n: nat)
    requires n < |args| && !BswvKeyword(args[n])
    ensures WalkBswv(args, n) == WalkBswv(args, n + 1)
  {
  }

  /** The OUTP walk steps over an argument it does not know by one place. */
  lemma WalkOutpSkipsUnknown(args: seq<Bytes>, n: nat)
    requires n < |args| && !OutpKeyword(args[n])
    ensures WalkOutp(args, n) == WalkOutp(args, n + 1)
  {
  }

  /** One `;`-separated command: a four-byte token, one skipped byte, then the
      `,`-separated arguments. Tokens other than BSWV and OUTP do nothing. */
  function ParseCommand(cmd: Bytes): (r: Parsed)
    ensures r.fault.Some? ==> r.fault.value.MissingValue?
    ensures !(|cmd| >= 4 && (cmd[..4] == BSWV || cmd[..4] == OUTP)) ==> r == Parsed([], None)
  {
    SliceMatches(cmd, 0, BSWV);
    SliceMatches(cmd, 0, OUTP);
    var token := Slice(cmd, 0, 4);
    var args := Split(From(cmd, 5), COMMA);
    if token == BSWV then WalkBswv(args, 0)
    else if token == OUTP then WalkOutp(args, 0)
    else Parsed([], None)
  }

  /** The commands in order; a fault ends the loop, keeping what was sent. */
  function ParseCommands(cmds: seq<Bytes>): (r: Parsed)
    ensures r.fault.Some? ==> r.fault.value.MissingValue?
    decreases |cmds|
  {
    if |cmds| == 0 then
      Parsed([], None)
    else
      var first := ParseCommand(cmds[0]);
      if first.fault.Some? then first
      else
        var rest := ParseCommands(cmds[1..]);
        Parsed(first.sent + rest.sent, rest.fault)
  }

  /** The commands of `a + b` are run in order: a fault in `a` ends the
      loop there, keeping what `a` sent, and nothing of `b` is run; otherwise
      `b` runs after `a`, and its fault, if any, is the outcome's. */
  lemma {:induction false} ParseCommandsAppend(a: seq<Bytes>, b: seq<Bytes>)
    ensures ParseCommands(a + b) ==
      var pa := ParseCommands(a);
      if pa.fault.Some? then pa
      else Parsed(pa.sent + ParseCommands(b).sent, ParseCommands(b).fault)
    decreases |a|, 1
  {
    if |a| == 0 {
      assert a + b == b by {}
    } else if ParseCommand(a[0]).fault.None? {
      AppendAfterClean(a, b);
    } else {
      ConsAppend(a, b);
      ParseCommandsFaulty(a);
      ParseCommandsFaulty(a + b);
    }
  }

  /** The append law when the first command of `a` parses cleanly. */
  lemma {:induction false} AppendAfterClean(a: seq<Bytes>, b: seq<Bytes>)
    requires |a| > 0 && ParseCommand(a[0]).fault.None?
    ensures ParseCommands(a + b) ==
      var pa := ParseCommands(a);
      if pa.fault.Some? then pa
      else Parsed(pa.sent + ParseCommands(b).sent, ParseCommands(b).fault)
    decreases |a|, 0
  {
    var first := ParseCommand(a[0]);
    ConsAppend(a, b);
    ParseCommandsClean(a);
    ParseCommandsClean(a + b);
    ParseCommandsAppend(a[1..], b);
    var restA := ParseCommands(a[1..]);
    var pb := ParseCommands(b);
    DirectivesAssoc(first.sent, restA.sent, pb.sent);
  }

  lemma DirectivesAssoc(a: seq<Directive>, b: seq<Directive>, c: seq<Directive>)
    ensures a + (b + c) == a + b + c
  {
  }

  /** A first command that parses cleanly is followed by the rest. */
  lemma ParseCommandsClean(cmds: seq<Bytes>)
    requires |cmds| > 0 && ParseCommand(cmds[0]).fault.None?
    ensures ParseCommands(cmds)
      == Parsed(ParseCommand(cmds[0]).sent + ParseCommands(cmds[1..]).sent, ParseCommands(cmds[1..]).fault)
  {
  }

  /** A first command that faults ends the loop with its own outcome. */
  lemma ParseCommandsFaulty(cmds: seq<Bytes>)
    requires |cmds| > 0 && ParseCommand(cmds[0]).fault.Some?
    ensures ParseCommands(cmds) == ParseCommand(cmds[0])
  {
  }

  lemma ConsAppend(a: seq<Bytes>, b: seq<Bytes>)
    requires |a| > 0
    ensures (a + b)[0] == a[0] && (a + b)[1..] == a[1..] + b
  {
    assert forall i | 0 <= i < |a| - 1 + |b| :: (a + b)[1..][i] == (a[1..] + b)[i];
  }

  /** A faulting command after commands that parse cleanly ends the loop:
      everything sent before it and by it is kept, and the commands after
      it are not run. */
  lemma FaultEndsCommands(before: seq<Bytes>, bad: Bytes, after: seq<Bytes>)
    requires ParseCommands(before).fault.None?
    requires ParseCommand(bad).fault.Some?
    ensures ParseCommands(before + [bad] + after)
      == Parsed(ParseCommands(before).sent + ParseCommand(bad).sent, ParseCommand(bad).fault)
  {
    assert before + [bad] + after == before + ([bad] + after);
    ParseCommandsAppend(before, [bad] + after);
    assert ([bad] + after)[0] == bad;
  }


  /** The last byte of `line` that is not whitespace is `?`. */
  predicate EndsInQuery(line: Bytes) {
    exists k :: 0 <= k < |line| && line[k] == QUERY && AllSpace(line[k + 1..])
  }

  /** At least two bytes of `line` are not whitespace. */
  predicate HasTwoNonSpace(line: Bytes) {
    exists i, j :: 0 <= i < j < |line| && !IsSpace(line[i]) && !IsSpace(line[j])
  }

  lemma StripQuery(line: Bytes)
    ensures (|Strip(line)| > 0 && Strip(line)[|Strip(line)| - 1] == QUERY) <==> EndsInQuery(line)
  {
    var lo, hi := StripWindow(line);
    WindowLast(line[lo..hi], line, lo, hi);
    QueryAtWindowEnd(line, lo, hi);
  }

  /** The last byte of the window `line[lo..hi]` is `line[hi - 1]`. */
  lemma WindowLast(t: Bytes, line: Bytes, lo: nat, hi: nat)
    requires lo <= hi <= |line| && t == line[lo..hi]
    ensures (|t| > 0 && t[|t| - 1] == QUERY) <==> (lo < hi && line[hi - 1] == QUERY)
  {
    if lo < hi {
      assert t[|t| - 1] == line[hi - 1];
    }
  }

  /** With whitespace only outside the window `line[lo..hi]` and at neither
      of its ends, the line ends in a query exactly when the window's last
      byte is `?`. */
  lemma QueryAtWindowEnd(line: Bytes, lo: nat, hi: nat)
    requires lo <= hi <= |line|
    requires forall j :: 0 <= j < lo ==> IsSpace(line[j])
    requires forall j :: hi <= j < |line| ==> IsSpace(line[j])
    requires lo < hi ==> !IsSpace(line[lo]) && !IsSpace(line[hi - 1])
    ensures (lo < hi && line[hi - 1] == QUERY) <==> EndsInQuery(line)
  {
    if lo < hi && line[hi - 1] == QUERY {
      assert AllSpace(line[hi..]) by {
        forall k | 0 <= k < |line[hi..]| ensures IsSpace(line[hi..][k]) {
          assert line[hi..][k] == line[hi + k];
        }
      }
      assert line[hi - 1 + 1..] == line[hi..];
    }
    if EndsInQuery(line) {
      var k :| 0 <= k < |line| && line[k] == QUERY && AllSpace(line[k + 1..]);
      forall j | k < j < |line| ensures IsSpace(line[j]) {
        assert line[k + 1..][j - (k + 1)] == line[j];
      }
    }
  }

  lemma StripShort(line: Bytes)
    ensures |Strip(line)| < 2 <==> !HasTwoNonSpace(line)
  {
    var lo, hi := StripWindow(line);
    if hi - lo >= 2 {
      assert !IsSpace(line[lo]) && !IsSpace(line[hi - 1]);
    }
    if HasTwoNonSpace(line) {
      var i, j :| 0 <= i < j < |line| && !IsSpace(line[i]) && !IsSpace(line[j]);
      assert lo <= i && j < hi;
    }
  }

  /** `parse_cmd`: strip the line; a query is ignored; otherwise read the
      channel byte `line[1]` (unused), then parse the `;`-separated commands
      after the three-byte `C<n>:` prefix. A fault before the commands
      sends nothing. */
  function ParseCmd(line: Bytes): (r: Parsed)
    ensures r.fault == Some(ShortLine) ==> r.sent == []
  {
    var s := Strip(line);
    if |s| > 0 && s[|s| - 1] == QUERY then Parsed([], None)
    else if |s| < 2 then Parsed([], Some(ShortLine))
    else ParseCommands(Split(From(s, 3), SEMICOLON))
  }

  /** A line whose last non-whitespace byte is `?` is a query: nothing is sent
      and nothing fails. */
  lemma QueryIgnored(line: Bytes)
    requires EndsInQuery(line)
    ensures ParseCmd(line) == Parsed([], None)
  {
    StripQuery(line);
  }

  /** `line[1]` fails exactly on a line that is not a query and has fewer
      than two non-whitespace bytes. */
  lemma ShortLineFault(line: Bytes)
    ensures ParseCmd(line).fault == Some(ShortLine) <==> !EndsInQuery(line) && !HasTwoNonSpace(line)
  {
    StripQuery(line);
    StripShort(line);
  }

  /** A line with no surrounding whitespace, at least two bytes long and not a
      query is parsed command by command after its three-byte prefix. */
  lemma ParseUnstripped(line: Bytes)
    requires |line| >= 2 && Strip(line) == line && line[|line| - 1] != QUERY
    ensures ParseCmd(line) == ParseCommands(Split(From(line, 3), SEMICOLON))
  {
  }

  /** The commands are read from the stripped line: whitespace around it,
      such as the line feed that ends every request, changes nothing. */
  lemma ParseCmdPadded(w1: Bytes, line: Bytes, w2: Bytes)
    requires AllSpace(w1) && AllSpace(w2)
    ensures ParseCmd(w1 + line + w2) == ParseCmd(line)
  {
    StripPadded(w1, line, w2);
  }
}
